=== FILE: README.md ===
# rdns wire codec, modelled in Dafny

This project models the DNS wire-format codec of `rdns`, a small forwarding
DNS server. It covers the message formats of section 4.1 of RFC 1035 as the
program implements them:

- the 12-octet header, held as raw octets, with its length-checked
  constructor, its bit-field getters and its builder;
- domain names as length-prefixed labels closed by a zero octet
  (`utils::encode` / `utils::decode`);
- question entries;
- resource records, together with the duplicate record encoder of `answer.rs`;
- whole packets: serialisation driven by the header's counts, the order in
  which `parse_request` decodes the sections, and the pure parts of
  `forward_dns`.

Everything is a pure function over octet sequences (`seq<bv8>`). Integers are
bit-vectors of the program's widths, `u16` and `u32`, written big-endian.
Each decoder takes the unread part of the buffer and returns
`Option<(value, rest)>`. `None` stands for the panics of the program: `get_u8`,
`get_u16` or `copy_to_bytes` on a buffer that is too short, and `unwrap`.
A missing packet id in the builder is a precondition instead, because there
the program panics before it touches any input.

| file | module | models |
|---|---|---|
| wire.dfy | `Wire` | octets, `Option`/`Result`, big-endian `put_u16`/`put_u32`, the `get_u16`/`get_u32`/`copy_to_bytes` cursor reads, and the in-order concatenation of a list's encodings that every section encoder uses |
| header.dfy | `HeaderCodec` | `src/protocol/header.rs` |
| name.dfy | `NameCodec` | `src/utils.rs` |
| question.dfy | `QuestionCodec` | `src/protocol/question.rs` |
| record.dfy | `RecordCodec` | `src/protocol/record.rs` |
| answer.dfy | `AnswerCodec` | `src/protocol/answer.rs` |
| packet.dfy | `PacketCodec` | `src/protocol/packet.rs` |

The codec is modelled as the code is written, not as RFC 1035 describes it:

- The name decoder follows no compression pointers. Any non-zero length octet,
  including one of 0xC0 or more, is read as the length of a plain label.
- The name encoder writes each segment's length truncated to eight bits. It
  has no 63-octet limit.
- The header builder shifts OPCODE by 4 instead of 3.
- `truncated_message()` reads bit 0 of octet 2, which is where RD lives.

Each of the last two sits next to a layout-conformant counterpart, so both can
be stated (see Findings).

## Model

| member | source | states |
|---|---|---|
| `HeaderCodec.TryFrom` | src/protocol/header.rs:28-39 | a buffer becomes a header exactly when it holds twelve octets; otherwise the error carries the length that was given |
| `HeaderCodec.Into` | src/protocol/header.rs:42-46 | a header's serialisation is always twelve octets |
| `HeaderCodec.TryFromThenInto` | src/protocol/header.rs:28-46 | twelve accepted octets serialise back to exactly those octets |
| `HeaderCodec.IntoThenTryFrom` | src/protocol/header.rs:57-59 | a header's serialisation is accepted again and yields the same header |
| `HeaderCodec.ExtractBits` | src/protocol/header.rs:106-108 | for `1 <= offset + num_bits <= 8` and `num_bits < 8` the extracted field is below 2^num_bits; outside this range the program's `u8` arithmetic overflows (with both zero it shifts a `u8` right by 8) |
| `HeaderCodec.PacketId` | src/protocol/header.rs:61-63 | ID is the big-endian word of octets 0 and 1: written back big-endian it is exactly those two octets |
| `HeaderCodec.QueryResponse` | src/protocol/header.rs:65-67 | QR is a single bit |
| `HeaderCodec.OpCode` | src/protocol/header.rs:69-71 | OPCODE is a 4-bit value |
| `HeaderCodec.AuthoritativeAnswer` | src/protocol/header.rs:73-75 | AA is a single bit |
| `HeaderCodec.TruncatedMessage` | src/protocol/header.rs:77-79 | the as-written TC getter yields a single bit |
| `HeaderCodec.AvailableRecursion` | src/protocol/header.rs:81-83 | RA is a single bit |
| `HeaderCodec.ResponseCode` | src/protocol/header.rs:85-87 | RCODE is a 4-bit value |
| `HeaderCodec.QuestionCount` | src/protocol/header.rs:89-91 | QDCOUNT is the big-endian word of octets 4 and 5: written back it is exactly those two octets |
| `HeaderCodec.AnswerCount` | src/protocol/header.rs:93-95 | ANCOUNT is the big-endian word of octets 6 and 7: written back it is exactly those two octets |
| `HeaderCodec.AuthorityCount` | src/protocol/header.rs:97-99 | NSCOUNT is the big-endian word of octets 8 and 9: written back it is exactly those two octets |
| `HeaderCodec.AdditionalCount` | src/protocol/header.rs:101-103 | ARCOUNT is the big-endian word of octets 10 and 11: written back it is exactly those two octets |
| `HeaderCodec.NewBuilder` | src/protocol/header.rs:112-114 | a new builder has none of its twelve fields set |
| `HeaderCodec.DnsHeaderBuilder.WithPacketId` | src/protocol/header.rs:116-119 | the setter stores the id and leaves every other field as it was |
| `HeaderCodec.DnsHeaderBuilder.WithQueryResponse` | src/protocol/header.rs:121-124 | the setter stores QR and leaves every other field as it was |
| `HeaderCodec.DnsHeaderBuilder.WithOpCode` | src/protocol/header.rs:126-129 | the setter stores OPCODE and leaves every other field as it was |
| `HeaderCodec.DnsHeaderBuilder.WithAuthoritativeAnswer` | src/protocol/header.rs:131-134 | the setter stores AA and leaves every other field as it was |
| `HeaderCodec.DnsHeaderBuilder.WithTruncatedMessage` | src/protocol/header.rs:136-139 | the setter stores TC and leaves every other field as it was |
| `HeaderCodec.DnsHeaderBuilder.WithDesiredRecursion` | src/protocol/header.rs:141-144 | the setter stores RD and leaves every other field as it was |
| `HeaderCodec.DnsHeaderBuilder.WithAvailableRecursion` | src/protocol/header.rs:146-149 | the setter stores RA and leaves every other field as it was |
| `HeaderCodec.DnsHeaderBuilder.WithResponseCode` | src/protocol/header.rs:151-154 | the setter stores RCODE and leaves every other field as it was |
| `HeaderCodec.DnsHeaderBuilder.WithQuestionCount` | src/protocol/header.rs:156-159 | the setter stores QDCOUNT and leaves every other field as it was |
| `HeaderCodec.DnsHeaderBuilder.WithAnswerCount` | src/protocol/header.rs:161-164 | the setter stores ANCOUNT and leaves every other field as it was |
| `HeaderCodec.DnsHeaderBuilder.WithAuthorityCount` | src/protocol/header.rs:166-169 | the setter stores NSCOUNT and leaves every other field as it was |
| `HeaderCodec.DnsHeaderBuilder.WithAdditionalCount` | src/protocol/header.rs:171-174 | the setter stores ARCOUNT and leaves every other field as it was |
| `HeaderCodec.ExampleQueryHeader` | src/protocol/header.rs:61-103 | the RD-only query header for id 1234 with one question reads back id 1234, QR 0, OPCODE 0, one question and no answers; the TC getter reports 1 |
| `HeaderCodec.Layout` | src/protocol/header.rs:190-203 | the builder's twelve octets hold the two flag octets at offsets 2 and 3, and the id and the four counts each read back big-endian from their two octets |
| `HeaderCodec.Build` | src/protocol/header.rs:176-208 | with a packet id given (none panics), the built header's id and four counts read back through the getters as given, and unset counts read back as 0 |
| `HeaderCodec.BuildFlagsReadBack` | src/protocol/header.rs:192-199 | after `build`, an RCODE up to 15 reads back unchanged with bits 6-4 of octet 3 zero, RA in {0,1} reads back, QR reads back when the four octet-2 flags (QR, AA, TC, RD) are bits and OPCODE is below 8, and AA reads back when those four flags are bits |
| `HeaderCodec.BuildMisreadFields` | src/protocol/header.rs:192-197 | with one-bit QR, AA, TC and RD, `op_code()` after `build` returns twice the OPCODE given, mod 16, and `truncated_message()` returns the RD flag given |
| `HeaderCodec.ReservedBitsFromResponseCode` | src/protocol/header.rs:199 | RCODE is packed unmasked: in both builders bits 6-4 of octet 3 equal bits 6-4 of the RCODE given, so an RCODE of 16 or more (0x70, say) sets reserved bits and one up to 15 leaves them zero |
| `HeaderCodec.BuildMisreadExample` | src/protocol/header.rs:194 | OPCODE 1 (inverse query) reads back as 2, and a header with only RD set reads back as truncated |
| `HeaderCodec.BuildDefaults` | src/protocol/header.rs:177-188 | with only the id set, every octet after the id is zero |
| `HeaderCodec.TruncatedMessageRfc` | src/protocol/header.rs:77-79 | TC read from bit 1 of octet 2, where section 4.1.1 of RFC 1035 puts it, is a single bit |
| `HeaderCodec.DesiredRecursion` | src/protocol/header.rs:197 | RD, which the builder stores in bit 0 of octet 2, is a single bit, and it is exactly what the as-written TC getter returns |
| `HeaderCodec.BuildRfc` | src/protocol/header.rs:190-203 | the builder with OPCODE shifted by 3 keeps the id and the four counts as given |
| `HeaderCodec.BuildRfcReadBack` | src/protocol/header.rs:61-103 | after the corrected build, every getter returns exactly the in-range value that was set, and the reserved bits are zero |
| `HeaderCodec.BuildRfcOfFields` | src/protocol/header.rs:176-208 | any header whose reserved bits are zero is rebuilt octet for octet from the values its getters read, so getters and corrected builder are inverse |
| `NameCodec.Split` | src/utils.rs:5 | `split('.')` gives at least one segment; no segment holds a '.'; joining the segments with '.' gives the name back |
| `NameCodec.SplitJoin` | src/utils.rs:5 | splitting the '.'-join of one or more dot-free segments gives those segments back |
| `NameCodec.SplitDotFree` | src/utils.rs:5 | a name without '.' is a single segment |
| `NameCodec.Encode` | src/utils.rs:3-11 | an encoded name is two octets longer than the name (one length octet per segment stands for each '.', plus one more and the terminator) and ends in a zero octet |
| `NameCodec.EncodedLength` | src/utils.rs:5-8 | the label section is one octet longer than the joined segments |
| `NameCodec.EncodeEmpty` | src/utils.rs:5-9 | the empty name encodes to two zero octets: one empty label and the terminator |
| `NameCodec.SegmentLengthOctet` | src/utils.rs:3-10 | a name without '.' of any length is written as one length octet holding its length mod 256 (no 63-octet check), then its octets, then the zero terminator |
| `NameCodec.LongSegmentTruncated` | src/utils.rs:6 | the sharpest case of the mod-256 length octet: a 256-octet segment is written with length 0 and decodes as the empty name, leaving the segment unread |
| `NameCodec.DecodeLabels` | src/utils.rs:15-23 | on success, what the decoder consumed is exactly the label section of the labels it returns followed by the zero octet, and every label has 1 to 255 octets |
| `NameCodec.Decode` | src/utils.rs:13-26 | decoding consumes octets up to and including a zero octet and leaves the rest of the cursor untouched; a leading zero gives the empty name; an empty buffer fails |
| `NameCodec.DecodeNeedsTerminator` | src/utils.rs:15-16 | a buffer without a zero octet never decodes: the decoder runs off its end |
| `NameCodec.DecodeLabelsFailsAfter` | src/utils.rs:15-23 | once the decoder has read a label of 1 to 255 octets, a failure of what follows makes the whole decode fail |
| `NameCodec.DecodeLabelsShort` | src/utils.rs:15-20 | after any number of labels read, a non-zero length octet asking for more octets than remain makes the label decoder fail |
| `NameCodec.DecodeShortLabel` | src/utils.rs:13-20 | whatever labels come before it, a length octet asking for more octets than remain makes decoding fail |
| `NameCodec.FirstOctetIsLength` | src/utils.rs:16-20 | any non-zero first octet, including a compression-pointer octet of 0xC0 or more, is the length of the first label, whose text is the octets that follow |
| `NameCodec.PointerNotFollowed` | src/utils.rs:16-20 | the compression pointer `C0 0C` followed by fewer than 191 octets fails instead of being followed |
| `NameCodec.DecodeLabelsOfEncoded` | src/utils.rs:15-23 | labels of 1 to 255 octets decode from their label section and the terminator, leaving what followed |
| `NameCodec.DecodeOfEncoded` | src/utils.rs:3-26 | `decode(encode(name) ++ rest) == (name, rest)` whenever every segment has 1 to 255 octets |
| `NameCodec.EncodeOfDecoded` | src/utils.rs:3-26 | re-encoding a decoded name reproduces the consumed octets when at least one label was read and no label holds a '.' |
| `NameCodec.EmptyName` | src/utils.rs:17-24 | the empty name does not survive a round trip: it decodes as the empty name but leaves its second zero octet unread |
| `QuestionCodec.Encode` | src/protocol/question.rs:12-20 | an encoded question is six octets longer than its name |
| `QuestionCodec.EncodeFields` | src/protocol/question.rs:15-17 | the encoded name comes first, then the record type and the class, each reading back big-endian |
| `QuestionCodec.Decode` | src/protocol/question.rs:22-31 | decoding succeeds exactly when the name decodes and at least four octets follow it; it consumes exactly those four after the name |
| `QuestionCodec.DecodeOfEncoded` | src/protocol/question.rs:12-31 | `decode(encode(q) ++ rest) == (q, rest)` for a question whose name segments have 1 to 255 octets |
| `QuestionCodec.EncodeOfDecoded` | src/protocol/question.rs:12-31 | re-encoding a decoded question reproduces the consumed octets when its name had at least one dot-free label |
| `RecordCodec.FixedFieldsReadBack` | src/protocol/record.rs:18-21 | type, class, TTL and length read back big-endian from offsets 0, 2, 4 and 8 of the ten fixed octets |
| `RecordCodec.Encode` | src/protocol/record.rs:14-26 | the encoding is the encoded name, then the ten fixed octets, then all of the data, so it is `name + 12 + data` octets long whatever the length field says |
| `RecordCodec.ReadFixed` | src/protocol/record.rs:31-34 | the four fixed-field reads succeed exactly when at least ten octets remain, and they consume exactly the first ten |
| `RecordCodec.ReadFixedOfFields` | src/protocol/record.rs:31-34 | the fixed fields read back from their octets, leaving what followed |
| `RecordCodec.FromBytes` | src/protocol/record.rs:29-45 | decoding succeeds exactly when the name decodes, at least ten octets follow it and at least `length` more follow those; the result always has `length` data octets and leaves the rest of the cursor |
| `RecordCodec.FromBytesOfEncoded` | src/protocol/record.rs:14-45 | `from_bytes(encode(r) ++ rest) == (r, rest)` when the length field equals the data size and the name segments have 1 to 255 octets |
| `RecordCodec.InconsistentNotRecovered` | src/protocol/record.rs:21-35 | a record whose length field differs from its data size never comes back from a round trip |
| `RecordCodec.EncodeOfFromBytes` | src/protocol/record.rs:14-45 | re-encoding a decoded record reproduces the consumed octets when its name had at least one dot-free label |
| `AnswerCodec.New` | src/protocol/answer.rs:19-30 | `new` holds exactly one record, equal field by field to its argument |
| `AnswerCodec.EncodeRecord` | src/protocol/answer.rs:37-42 | one record's encoding is `name + 12 + data` octets long |
| `AnswerCodec.Encode` | src/protocol/answer.rs:33-47 | an answer is written octet for octet as a packet writes an answer section holding the same records as resource records |
| `AnswerCodec.EncodeRecordsAsAnswers` | src/protocol/answer.rs:36-43 | the records' encodings one after another are the answer section a packet writes for the corresponding resource records |
| `AnswerCodec.ToBytes` | src/protocol/answer.rs:33-47 | the loop's output is the records' encodings concatenated in order |
| `Wire.ConcatAppend` | src/protocol/answer.rs:36-43 | for any per-entry encoder, and so for the record, question and answer lists alike, the encoding of two lists one after the other is their two encodings one after the other |
| `AnswerCodec.EncodeRecordAsRecordCodec` | src/protocol/answer.rs:37-42 | each record is written octet for octet as `From<&DnsRecord> for Bytes` writes it |
| `AnswerCodec.LengthWrittenVerbatim` | src/protocol/answer.rs:41-42 | the length field is copied as stored, not recomputed, and the data that follows it is written in full |
| `AnswerCodec.NewEncoding` | src/protocol/answer.rs:33-47 | an answer made by `new` encodes to its one record, `name + 12 + data` octets |
| `PacketCodec.Serialize` | src/protocol/packet.rs:14-31 | serialisation starts with the header's twelve octets unchanged |
| `PacketCodec.ToBytes` | src/protocol/packet.rs:14-31 | the two loops compute the header, then the first min(question_count, questions) questions, then the first min(answer_count, answers) answers |
| `PacketCodec.AppendQuestions` | src/protocol/packet.rs:19-23 | the question loop appends exactly the questions at indices below the count, skipping missing ones |
| `PacketCodec.AppendAnswers` | src/protocol/packet.rs:24-28 | the answer loop appends exactly the records at indices below the count, skipping missing ones |
| `PacketCodec.SerializeAll` | src/protocol/packet.rs:14-31 | when the counts cover the entries, the output is the header, all questions in order, then all answers in order |
| `PacketCodec.SerializeDropsExtra` | src/protocol/packet.rs:19-28 | entries beyond the header's counts are not written: adding more of them leaves the output unchanged |
| `PacketCodec.ParseQuestions` | src/protocol/packet.rs:50-51 | reading `n` questions yields exactly `n` of them, and what is left is a suffix of the input |
| `PacketCodec.ParseAnswers` | src/protocol/packet.rs:53-54 | reading `n` records yields exactly `n` of them, and what is left is a suffix of the input |
| `PacketCodec.Parse` | src/protocol/packet.rs:46-64 | parsing fails on fewer than twelve octets; on success the header is the first twelve octets, the numbers of questions and answers equal the header's counts, and what is left is a suffix of the input |
| `PacketCodec.ParseQuestionsOfEncoded` | src/protocol/packet.rs:50-51 | well-formed questions encoded one after another parse back, each from where the previous stopped, leaving what followed |
| `PacketCodec.ParseAnswersOfEncoded` | src/protocol/packet.rs:53-54 | consistent, well-named records encoded one after another parse back, leaving what followed |
| `PacketCodec.ParseOfSerialize` | src/protocol/packet.rs:14-64 | parsing a serialised packet whose counts match its entries (well-formed names, consistent lengths) gives the packet back and leaves what followed |
| `PacketCodec.ForwardQuery` | src/protocol/packet.rs:93-113 | the forwarded query's questions are exactly the given question and it has no answers; its header says one question and no answers, so its counts match its entries |
| `PacketCodec.ForwardQueryBytes` | src/protocol/packet.rs:93-115 | the forwarded query is sent as `00 7B 01 00 00 01 00 00 00 00 00 00` followed by the question's encoding; the as-written builder packs the same header |
| `PacketCodec.ForwardQueryHeader` | src/protocol/packet.rs:93-107 | the forwarded header reads id 123, RD 1, one question, and zero in every other field |
| `PacketCodec.FirstAnswer` | src/protocol/packet.rs:123-125 | a reply yields an answer exactly when it parses and holds at least one answer |
| `PacketCodec.FirstAnswerOfReply` | src/protocol/packet.rs:123-125 | a reply that serialises a packet with answers yields its first answer, whatever follows it |
| `PacketCodec.NoAnswerInReply` | src/protocol/packet.rs:125 | a reply that serialises a packet without answers yields no answer, where the program panics |

## Left out

- `src/main.rs`, the UDP socket, the command-line parsing and the logging: these are I/O and process plumbing.
- The send and receive of `forward_dns` and its 512-octet receive buffer (src/protocol/packet.rs:92, 114-122): network I/O. `FirstAnswer` takes the reply as a parameter.
- `to_response` (src/protocol/packet.rs:66-89): it calls `to_response` functions of the header, question and record types that are not part of this model.
- The nom parser `DnsHeader::parse_request` and the `parse_request` helpers of questions and records (src/protocol/packet.rs:48-54): their bodies are not part of this model. `Parse` reads the header with `TryFrom` on the first twelve octets. It reads the entries with the question and record decoders of question.rs and record.rs, each from where the previous one stopped.
- The field-struct header that `forward_dns` writes (src/protocol/packet.rs:93-107) is modelled as the byte-backed header of header.rs, built with the fields it sets.
- `DnsHeader::new` and `bytes()` (src/protocol/header.rs:49-55): `new` just calls `build`, and `bytes()` is the datatype's field.
- UTF-8 validation in `decode` (`from_utf8().unwrap()`, src/utils.rs:21): names and labels are octet sequences, so a label that is not UTF-8 decodes here where the program panics.
- The `orig` parameter of `from_bytes` (src/protocol/record.rs:29-30): `from_bytes` passes it to `decode` as a second argument, but `decode` (src/utils.rs:13) takes only the buffer, so the model drops it and decodes from the buffer alone.
- Compression pointers (section 4.1.4 of RFC 1035) and the 63-octet label limit (section 2.3.4): the code implements neither, and `NameCodec.FirstOctetIsLength` and `NameCodec.LongSegmentTruncated` state what it does instead.
- The getters of questions (src/protocol/question.rs:33-45) and of packets (src/protocol/packet.rs:33-44) return stored fields unchanged; here they are the datatypes' fields.
- `src/protocol/mod.rs`: module wiring only. `answer.rs` is not declared there, so nothing calls `AnswerCodec`; it is modelled as written.
- The `bytes` crate's buffer types: they are octet sequences, and a cursor is the unread remainder.
- `HeaderCodec.BuildRfcOfFields`: it requires the reserved bits (6-4 of octet 3) to be zero, because no getter reads them, so the builder rebuilt from the getters' values can only carry them as zero. The builder writes them as zero only when RCODE is at most 15; a larger RCODE spills into them (`HeaderCodec.BuildFlagsReadBack`, `HeaderCodec.ReservedBitsFromResponseCode`).
- `NameCodec.DecodeOfEncoded`, `QuestionCodec.DecodeOfEncoded`, `RecordCodec.FromBytesOfEncoded`, `PacketCodec.ParseOfSerialize`: the round trips are stated for names whose segments have 1 to 255 octets. Empty segments end the name early, and longer ones get a truncated length octet, so outside this range the round trip fails (`NameCodec.EmptyName`, `NameCodec.LongSegmentTruncated`).

## Findings

| source | as written | input that shows it | evidently intended | confidence | as-written member | corrected member |
|---|---|---|---|---|---|---|
| src/protocol/header.rs:194 | `build` packs OPCODE with `op_code << 4`, while `op_code()` reads bits 6-3 of octet 2 | OPCODE 1 (inverse query): `op_code()` then returns 2 | `op_code << 3`, so OPCODE fills bits 6-3 (section 4.1.1 of RFC 1035) and reads back | high; not executed | `HeaderCodec.BuildMisreadExample` (about `HeaderCodec.Build`) | `HeaderCodec.BuildRfcReadBack` (about `HeaderCodec.BuildRfc`) |
| src/protocol/header.rs:77-78 | `truncated_message()` extracts bit 0 of octet 2, where `build` stores RD | the header `04 D2 01 00 00 01 00 00 00 00 00 00` (only RD set) reads back as truncated | extract bit 1 of octet 2, where `build` stores TC | high; not executed | `HeaderCodec.ExampleQueryHeader` (about `HeaderCodec.TruncatedMessage`) | `HeaderCodec.BuildRfcReadBack` (about `HeaderCodec.TruncatedMessageRfc`) |

The forwarded query and the header round trip `HeaderCodec.BuildRfcOfFields` use the corrected members.
Both builders agree on the forwarded query's header, because its OPCODE is 0
(`PacketCodec.ForwardQueryBytes`).

=== FILE: answer.dfy ===
/**
 * The answer section as `answer.rs` writes it: a list of records, each
 * laid out exactly as a resource record of `record.rs`. The file is not
 * wired into the program's module tree, so nothing calls it; it is modelled
 * as written and shown to agree octet for octet with the record codec.
 */
module AnswerCodec {
  import opened Wire
  import NameCodec
  import RecordCodec
  import PacketCodec

  /** `Record`: the same six fields as a resource record. */
  datatype Record = Record(
    name: NameCodec.Name,
    recordType: u16,
    recordClass: u16,
    ttl: u32,
    length: u16,
    data: seq<byte>)

  datatype DnsAnswer = DnsAnswer(records: seq<Record>)

  /** `DnsAnswer::new`: an answer holding one record, rebuilt field by field from the argument. */
  function New(record: Record): (a: DnsAnswer)
    ensures |a.records| == 1
    ensures a.records[0] == record
  {
    DnsAnswer([Record(record.name, record.recordType, record.recordClass, record.ttl, record.length, record.data)])
  }

  /** One iteration of the loop in `From<DnsAnswer> for Bytes`. */
  function EncodeRecord(r: Record): (out: seq<byte>)
    ensures |out| == |r.name| + 12 + |r.data|
  {
    NameCodec.Encode(r.name) + PutU16(r.recordType) + PutU16(r.recordClass)
      + PutU32(r.ttl) + PutU16(r.length) + r.data
  }

  /** The records' encodings, in order, one after another. */
  function EncodeRecords(records: seq<Record>): seq<byte> {
    Concat(records, EncodeRecord)
  }

  /**
   * `From<DnsAnswer> for Bytes`: octet for octet the answer section a packet
   * writes for the same records.
   */
  function Encode(a: DnsAnswer): (r: seq<byte>)
    ensures r == PacketCodec.EncodeAnswers(AsDnsRecords(a.records))
  {
    EncodeRecordsAsAnswers(a.records);
    EncodeRecords(a.records)
  }

  /** The loop of `From<DnsAnswer> for Bytes`, appending one record per iteration. */
  method ToBytes(a: DnsAnswer) returns (out: seq<byte>)
    ensures out == Encode(a)
  {
    out := [];
    var i := 0;
    while i < |a.records|
      invariant 0 <= i <= |a.records|
      invariant out == EncodeRecords(a.records[..i])
    {
      assert a.records[..i + 1] == a.records[..i] + [a.records[i]];
      ConcatSnoc(a.records[..i], a.records[i], EncodeRecord);
      out := out + EncodeRecord(a.records[i]);
      i := i + 1;
    }
    assert a.records[..i] == a.records;
  }

  /** The resource record with the same fields. */
  function AsDnsRecord(r: Record): RecordCodec.DnsRecord {
    RecordCodec.DnsRecord(r.name, r.recordType, r.recordClass, r.ttl, r.length, r.data)
  }

  /** The resource records with the same fields, in the same order. */
  function AsDnsRecords(records: seq<Record>): seq<RecordCodec.DnsRecord> {
    seq(|records|, i requires 0 <= i < |records| => AsDnsRecord(records[i]))
  }

  /** The records' encodings one after another are the answer section a packet writes for them. */
  lemma {:induction false} EncodeRecordsAsAnswers(records: seq<Record>)
    ensures EncodeRecords(records) == PacketCodec.EncodeAnswers(AsDnsRecords(records))
    decreases |records|
  {
    if |records| != 0 {
      assert AsDnsRecords(records)[1..] == AsDnsRecords(records[1..]);
      EncodeRecordAsRecordCodec(records[0]);
      EncodeRecordsAsAnswers(records[1..]);
    }
  }

  /** Each record is written octet for octet as the record codec writes it. */
  lemma EncodeRecordAsRecordCodec(r: Record)
    ensures EncodeRecord(r) == RecordCodec.Encode(AsDnsRecord(r))
  {
    var t := PutU16(r.recordType);
    var c := PutU16(r.recordClass);
    var w := PutU32(r.ttl);
    var l := PutU16(r.length);
    var name := NameCodec.Encode(r.name);
    calc {
      name + t + c + w + l;
      { SeqAssoc(name + t + c, w, l); }
      name + t + c + (w + l);
      { SeqAssoc(name + t, c, w + l); }
      name + t + (c + (w + l));
      { SeqAssoc(name, t, c + (w + l)); }
      name + RecordCodec.FixedFields(r.recordType, r.recordClass, r.ttl, r.length);
    }
  }

  /**
   * The length field is written as stored, not computed from the data: the
   * two octets after type, class and TTL read back as `length`, and the data
   * that follows them is written in full.
   */
  lemma LengthWrittenVerbatim(r: Record)
    ensures var out := EncodeRecord(r);
      ReadU16(out[|r.name| + 10..]) == r.length && out[|r.name| + 12..] == r.data
  {
    EncodeRecordAsRecordCodec(r);
    var fixed := RecordCodec.FixedFields(r.recordType, r.recordClass, r.ttl, r.length);
    RecordCodec.FixedFieldsReadBack(r.recordType, r.recordClass, r.ttl, r.length);
    var out := EncodeRecord(r);
    var n := |r.name|;
    assert out[n + 2..n + 12] == fixed;
    assert out[n + 10] == fixed[8] && out[n + 11] == fixed[9] by {
      assert out[n + 2..n + 12][8] == fixed[8] && out[n + 2..n + 12][9] == fixed[9];
    }
    assert ReadU16(out[n + 10..]) == ReadU16(fixed[8..]) by {
      assert out[n + 10..][0] == fixed[8..][0] && out[n + 10..][1] == fixed[8..][1];
    }
  }

  /** An answer made by `new` encodes to its one record: the name's size plus twelve plus the data. */
  lemma NewEncoding(r: Record)
    ensures Encode(New(r)) == EncodeRecord(r)
    ensures |Encode(New(r))| == |r.name| + 12 + |r.data|
  {
    ConcatSingle(r, EncodeRecord);
  }
}

=== FILE: header.dfy ===
/**
 * The fixed 12-octet DNS message header (section 4.1.1 of RFC 1035),
 * held as its raw octets: a length-checked constructor from bytes, the
 * bit-field getters, and the builder that packs the fields.
 *
 * The getters follow the RFC layout except `TruncatedMessage`, which reads
 * the RD bit; the builder places OPCODE one bit too high. Both are modelled
 * as written (`Build`, `TruncatedMessage`) and next to a layout-conformant
 * counterpart (`BuildRfc`, `TruncatedMessageRfc`).
 */
module HeaderCodec {
  import opened Wire

  const HeaderLength: nat := 12

  type HeaderBytes = s: seq<byte> | |s| == HeaderLength witness [0, 0, 0, 0, 0, 0, 0, 0, 0, 0, 0, 0]

  /** A header is exactly its twelve octets; every field is read out of them on demand. */
  datatype DnsHeader = DnsHeader(bytes: HeaderBytes)

  /** Why a buffer is not a header: it does not hold exactly twelve octets. */
  datatype HeaderError = WrongLength(got: nat)

  function Pow2(n: nat): (p: nat)
    ensures p >= 1
  {
    if n == 0 then 1 else 2 * Pow2(n - 1)
  }

  // ---------------------------------------------------------------------------
  // Conversions between a header and its bytes
  // ---------------------------------------------------------------------------

  /** `TryFrom<Bytes>`: accepts exactly twelve octets and keeps them as they are. */
  function TryFrom(bytes: seq<byte>): (r: Result<DnsHeader, HeaderError>)
    ensures r.Ok? <==> |bytes| == HeaderLength
    ensures r.Err? ==> r.error == WrongLength(|bytes|)
  {
    if |bytes| != HeaderLength then Err(WrongLength(|bytes|)) else Ok(DnsHeader(bytes))
  }

  /** `into()`, `bytes()` and `From<DnsHeader> for Bytes`: the header's octets. */
  function Into(h: DnsHeader): (r: seq<byte>)
    ensures |r| == HeaderLength
  {
    h.bytes
  }

  /** Twelve octets accepted by `TryFrom` serialise back to exactly those octets. */
  lemma TryFromThenInto(bytes: seq<byte>)
    requires |bytes| == HeaderLength
    ensures TryFrom(bytes).Ok? && Into(TryFrom(bytes).value) == bytes
  {
  }

  /** A header's serialisation is accepted by `TryFrom` and yields the same header. */
  lemma IntoThenTryFrom(h: DnsHeader)
    ensures TryFrom(Into(h)) == Ok(h)
  {
  }

  // ---------------------------------------------------------------------------
  // Field getters
  // ---------------------------------------------------------------------------

  /**
   * The `numBits`-bit field of `b` that starts `offset` bits below the most
   * significant bit. The program computes `8 - offset - num_bits`, shifts a
   * `u8` right by it and computes `1 << num_bits` in `u8`; each of these
   * overflows outside the precondition (a shift by 8 when both are zero).
   */
  function ExtractBits(b: byte, offset: byte, numBits: byte): (r: byte)
    requires 1 <= offset as int + numBits as int <= 8 && numBits < 8
    ensures r as int < Pow2(numBits as nat)
  {
    var v := (b >> (8 - offset - numBits)) & ((1 << numBits) - 1);
    Pow2Mask(numBits, v);
    v
  }

  /** A value under the `n`-bit mask is below 2^n. */
  lemma Pow2Mask(n: byte, v: byte)
    requires n < 8 && v <= (1 << n) - 1
    ensures v as int < Pow2(n as nat)
  {
    assert Pow2(1) == 2 && Pow2(2) == 4 && Pow2(3) == 8 && Pow2(4) == 16;
    assert Pow2(5) == 32 && Pow2(6) == 64 && Pow2(7) == 128;
  }

  /** ID: the big-endian word in octets 0 and 1, which writes back as exactly those two octets. */
  function PacketId(h: DnsHeader): (r: u16)
    ensures PutU16(r) == h.bytes[0..2]
  {
    PutReadU16(h.bytes[0..2]);
    ReadU16(h.bytes[0..2])
  }

  /** QR: bit 7 of octet 2. */
  function QueryResponse(h: DnsHeader): (r: byte)
    ensures r <= 1
  {
    ExtractBits(h.bytes[2], 0, 1)
  }

  /** OPCODE: bits 6-3 of octet 2. */
  function OpCode(h: DnsHeader): (r: byte)
    ensures r <= 15
  {
    ExtractBits(h.bytes[2], 1, 4)
  }

  /** AA: bit 2 of octet 2. */
  function AuthoritativeAnswer(h: DnsHeader): (r: byte)
    ensures r <= 1
  {
    ExtractBits(h.bytes[2], 5, 1)
  }

  /** As written: reads bit 0 of octet 2, which is where RD lives, not TC. */
  function TruncatedMessage(h: DnsHeader): (r: byte)
    ensures r <= 1
  {
    ExtractBits(h.bytes[2], 7, 1)
  }

  /** RA: bit 7 of octet 3. */
  function AvailableRecursion(h: DnsHeader): (r: byte)
    ensures r <= 1
  {
    ExtractBits(h.bytes[3], 0, 1)
  }

  /** RCODE: bits 3-0 of octet 3. */
  function ResponseCode(h: DnsHeader): (r: byte)
    ensures r <= 15
  {
    ExtractBits(h.bytes[3], 4, 4)
  }

  /** QDCOUNT: the big-endian word in octets 4 and 5, which writes back as exactly those two octets. */
  function QuestionCount(h: DnsHeader): (r: u16)
    ensures PutU16(r) == h.bytes[4..6]
  {
    PutReadU16(h.bytes[4..6]);
    ReadU16(h.bytes[4..6])
  }

  /** ANCOUNT: the big-endian word in octets 6 and 7, which writes back as exactly those two octets. */
  function AnswerCount(h: DnsHeader): (r: u16)
    ensures PutU16(r) == h.bytes[6..8]
  {
    PutReadU16(h.bytes[6..8]);
    ReadU16(h.bytes[6..8])
  }

  /** NSCOUNT: the big-endian word in octets 8 and 9, which writes back as exactly those two octets. */
  function AuthorityCount(h: DnsHeader): (r: u16)
    ensures PutU16(r) == h.bytes[8..10]
  {
    PutReadU16(h.bytes[8..10]);
    ReadU16(h.bytes[8..10])
  }

  /** ARCOUNT: the big-endian word in octets 10 and 11, which writes back as exactly those two octets. */
  function AdditionalCount(h: DnsHeader): (r: u16)
    ensures PutU16(r) == h.bytes[10..12]
  {
    PutReadU16(h.bytes[10..12]);
    ReadU16(h.bytes[10..12])
  }

  /**
   * A query header for id 1234 with only RD set and one question: the
   * getters read its fields, and `TruncatedMessage` reports the RD bit.
   */
  lemma ExampleQueryHeader()
    ensures var h := TryFrom([0x04, 0xD2, 0x01, 0x00, 0x00, 0x01, 0x00, 0x00, 0x00, 0x00, 0x00, 0x00]);
      && h.Ok?
      && PacketId(h.value) == 1234 && QueryResponse(h.value) == 0 && OpCode(h.value) == 0
      && QuestionCount(h.value) == 1 && AnswerCount(h.value) == 0
      && TruncatedMessage(h.value) == 1
  {
    var b: seq<byte> := [0x04, 0xD2, 0x01, 0x00, 0x00, 0x01, 0x00, 0x00, 0x00, 0x00, 0x00, 0x00];
    assert b[0..2] == PutU16(1234) + [];
    assert b[4..6] == PutU16(1) + [];
    assert b[6..8] == PutU16(0) + [];
    ReadPutU16(1234, []);
    ReadPutU16(1, []);
    ReadPutU16(0, []);
  }

  // ---------------------------------------------------------------------------
  // Builder
  // ---------------------------------------------------------------------------

  /** Every field optional; `Build` requires the id and defaults the rest to zero. */
  datatype DnsHeaderBuilder = DnsHeaderBuilder(
    packetId: Option<u16>,
    queryResponse: Option<byte>,
    opCode: Option<byte>,
    authoritativeAnswer: Option<byte>,
    truncatedMessage: Option<byte>,
    desiredRecursion: Option<byte>,
    availableRecursion: Option<byte>,
    responseCode: Option<byte>,
    questionCount: Option<u16>,
    answerCount: Option<u16>,
    authorityCount: Option<u16>,
    additionalCount: Option<u16>)
  {
    // Each setter sets its own field and leaves every other field as it was.
    function WithPacketId(x: u16): (r: DnsHeaderBuilder)
      ensures r.packetId == Some(x) && r.(packetId := packetId) == this
    {
      this.(packetId := Some(x))
    }
    function WithQueryResponse(x: byte): (r: DnsHeaderBuilder)
      ensures r.queryResponse == Some(x) && r.(queryResponse := queryResponse) == this
    {
      this.(queryResponse := Some(x))
    }
    function WithOpCode(x: byte): (r: DnsHeaderBuilder)
      ensures r.opCode == Some(x) && r.(opCode := opCode) == this
    {
      this.(opCode := Some(x))
    }
    function WithAuthoritativeAnswer(x: byte): (r: DnsHeaderBuilder)
      ensures r.authoritativeAnswer == Some(x) && r.(authoritativeAnswer := authoritativeAnswer) == this
    {
      this.(authoritativeAnswer := Some(x))
    }
    function WithTruncatedMessage(x: byte): (r: DnsHeaderBuilder)
      ensures r.truncatedMessage == Some(x) && r.(truncatedMessage := truncatedMessage) == this
    {
      this.(truncatedMessage := Some(x))
    }
    function WithDesiredRecursion(x: byte): (r: DnsHeaderBuilder)
      ensures r.desiredRecursion == Some(x) && r.(desiredRecursion := desiredRecursion) == this
    {
      this.(desiredRecursion := Some(x))
    }
    function WithAvailableRecursion(x: byte): (r: DnsHeaderBuilder)
      ensures r.availableRecursion == Some(x) && r.(availableRecursion := availableRecursion) == this
    {
      this.(availableRecursion := Some(x))
    }
    function WithResponseCode(x: byte): (r: DnsHeaderBuilder)
      ensures r.responseCode == Some(x) && r.(responseCode := responseCode) == this
    {
      this.(responseCode := Some(x))
    }
    function WithQuestionCount(x: u16): (r: DnsHeaderBuilder)
      ensures r.questionCount == Some(x) && r.(questionCount := questionCount) == this
    {
      this.(questionCount := Some(x))
    }
    function WithAnswerCount(x: u16): (r: DnsHeaderBuilder)
      ensures r.answerCount == Some(x) && r.(answerCount := answerCount) == this
    {
      this.(answerCount := Some(x))
    }
    function WithAuthorityCount(x: u16): (r: DnsHeaderBuilder)
      ensures r.authorityCount == Some(x) && r.(authorityCount := authorityCount) == this
    {
      this.(authorityCount := Some(x))
    }
    function WithAdditionalCount(x: u16): (r: DnsHeaderBuilder)
      ensures r.additionalCount == Some(x) && r.(additionalCount := additionalCount) == this
    {
      this.(additionalCount := Some(x))
    }
  }

  /** `DnsHeaderBuilder::new()`, the derived default: no field is set. */
  function NewBuilder(): (b: DnsHeaderBuilder)
    ensures b.packetId.None? && b.queryResponse.None? && b.opCode.None? && b.authoritativeAnswer.None?
    ensures b.truncatedMessage.None? && b.desiredRecursion.None? && b.availableRecursion.None?
    ensures b.responseCode.None? && b.questionCount.None? && b.answerCount.None?
    ensures b.authorityCount.None? && b.additionalCount.None?
  {
    DnsHeaderBuilder(None, None, None, None, None, None, None, None, None, None, None, None)
  }

  /** Octet 2 as `build` packs it: OPCODE shifted by 4 instead of 3. */
  function FlagsHigh(b: DnsHeaderBuilder): byte {
    (b.queryResponse.GetOr(0) << 7)
    | (b.opCode.GetOr(0) << 4)
    | (b.authoritativeAnswer.GetOr(0) << 2)
    | (b.truncatedMessage.GetOr(0) << 1)
    | b.desiredRecursion.GetOr(0)
  }

  /** Octet 2 as section 4.1.1 of RFC 1035 lays it out: OPCODE in bits 6-3. */
  function FlagsHighRfc(b: DnsHeaderBuilder): byte {
    (b.queryResponse.GetOr(0) << 7)
    | (b.opCode.GetOr(0) << 3)
    | (b.authoritativeAnswer.GetOr(0) << 2)
    | (b.truncatedMessage.GetOr(0) << 1)
    | b.desiredRecursion.GetOr(0)
  }

  /** Octet 3 as both builders pack it: RA in bit 7, RCODE or-ed in unshifted. */
  function FlagsLow(b: DnsHeaderBuilder): byte {
    (b.availableRecursion.GetOr(0) << 7) | b.responseCode.GetOr(0)
  }

  /** The four counts, each big-endian. */
  function Counts(b: DnsHeaderBuilder): (r: seq<byte>)
    ensures |r| == 8
  {
    PutU16(b.questionCount.GetOr(0)) + PutU16(b.answerCount.GetOr(0))
    + PutU16(b.authorityCount.GetOr(0)) + PutU16(b.additionalCount.GetOr(0))
  }

  /** The twelve octets both builders write: the id, the two flag octets, the counts. */
  function Layout(id: u16, high: byte, low: byte, b: DnsHeaderBuilder): (s: seq<byte>)
    ensures |s| == HeaderLength
    ensures s[2] == high && s[3] == low
    ensures ReadU16(s[0..2]) == id
    ensures ReadU16(s[4..6]) == b.questionCount.GetOr(0)
    ensures ReadU16(s[6..8]) == b.answerCount.GetOr(0)
    ensures ReadU16(s[8..10]) == b.authorityCount.GetOr(0)
    ensures ReadU16(s[10..12]) == b.additionalCount.GetOr(0)
  {
    var s := PutU16(id) + [high, low] + Counts(b);
    ReadPutU16(id, []);
    assert s[0..2] == PutU16(id) + [];
    assert s[4..12] == Counts(b);
    CountsReadBack(b, s);
    s
  }

  /** Each count reads back from its two octets. */
  lemma CountsReadBack(b: DnsHeaderBuilder, s: seq<byte>)
    requires |s| == HeaderLength && s[4..12] == Counts(b)
    ensures ReadU16(s[4..6]) == b.questionCount.GetOr(0)
    ensures ReadU16(s[6..8]) == b.answerCount.GetOr(0)
    ensures ReadU16(s[8..10]) == b.authorityCount.GetOr(0)
    ensures ReadU16(s[10..12]) == b.additionalCount.GetOr(0)
  {
    var q := PutU16(b.questionCount.GetOr(0));
    var a := PutU16(b.answerCount.GetOr(0));
    var n := PutU16(b.authorityCount.GetOr(0));
    var d := PutU16(b.additionalCount.GetOr(0));
    assert Counts(b) == q + a + n + d;
    assert s[4] == q[0] && s[5] == q[1] && s[6] == a[0] && s[7] == a[1];
    assert s[8] == n[0] && s[9] == n[1] && s[10] == d[0] && s[11] == d[1];
    assert s[4..6] == q + [];
    assert s[6..8] == a + [];
    assert s[8..10] == n + [];
    assert s[10..12] == d + [];
    ReadPutU16(b.questionCount.GetOr(0), []);
    ReadPutU16(b.answerCount.GetOr(0), []);
    ReadPutU16(b.authorityCount.GetOr(0), []);
    ReadPutU16(b.additionalCount.GetOr(0), []);
  }

  /**
   * `DnsHeaderBuilder::build`, as written: OPCODE is shifted by 4, so its low
   * three bits land in bits 6-4 and its bit 3 is or-ed into QR. A missing id
   * panics in the program and is a precondition here.
   */
  function Build(b: DnsHeaderBuilder): (h: DnsHeader)
    requires b.packetId.Some?
    ensures PacketId(h) == b.packetId.value
    ensures QuestionCount(h) == b.questionCount.GetOr(0)
    ensures AnswerCount(h) == b.answerCount.GetOr(0)
    ensures AuthorityCount(h) == b.authorityCount.GetOr(0)
    ensures AdditionalCount(h) == b.additionalCount.GetOr(0)
  {
    DnsHeader(Layout(b.packetId.value, FlagsHigh(b), FlagsLow(b), b))
  }

  /** A single-bit flag as the builder expects it. */
  predicate IsBit(x: Option<byte>) {
    x.GetOr(0) <= 1
  }

  /** Every one-bit flag of the builder is 0 or 1 (or unset). */
  predicate FlagsAreBits(b: DnsHeaderBuilder) {
    HighFlagsAreBits(b) && IsBit(b.availableRecursion)
  }

  /** The one-bit flags packed into octet 2 (QR, AA, TC and RD) are each 0 or 1. */
  predicate HighFlagsAreBits(b: DnsHeaderBuilder) {
    IsBit(b.queryResponse) && IsBit(b.authoritativeAnswer) && IsBit(b.truncatedMessage)
    && IsBit(b.desiredRecursion)
  }

  /** What the getters read back after `Build`, for in-range inputs. */
  lemma BuildFlagsReadBack(b: DnsHeaderBuilder)
    requires b.packetId.Some?
    ensures var h := Build(b);
      && (b.responseCode.GetOr(0) <= 15 ==> ResponseCode(h) == b.responseCode.GetOr(0))
      && (b.responseCode.GetOr(0) <= 15 ==> h.bytes[3] & 0x70 == 0)
      && (b.responseCode.GetOr(0) <= 15 && IsBit(b.availableRecursion) ==>
            AvailableRecursion(h) == b.availableRecursion.GetOr(0))
      && (HighFlagsAreBits(b) && b.opCode.GetOr(0) < 8 ==> QueryResponse(h) == b.queryResponse.GetOr(0))
      && (HighFlagsAreBits(b) ==> AuthoritativeAnswer(h) == b.authoritativeAnswer.GetOr(0))
  {
  }

  /**
   * Neither builder masks RCODE: bits 6-4 of octet 3, which no getter reads,
   * are bits 6-4 of the RCODE given, so an RCODE of 16 or more spills into
   * them and one up to 15 leaves them zero.
   */
  lemma ReservedBitsFromResponseCode(b: DnsHeaderBuilder)
    requires b.packetId.Some?
    ensures Build(b).bytes[3] & 0x70 == b.responseCode.GetOr(0) & 0x70
    ensures BuildRfc(b).bytes[3] & 0x70 == b.responseCode.GetOr(0) & 0x70
  {
  }

  /**
   * The two places where `Build` and the getters disagree: with one-bit
   * flags, `OpCode` reads back twice the OPCODE given (mod 16), and
   * `TruncatedMessage` reads back the RD flag given.
   */
  lemma BuildMisreadFields(b: DnsHeaderBuilder)
    requires b.packetId.Some? && HighFlagsAreBits(b)
    ensures OpCode(Build(b)) == (2 * b.opCode.GetOr(0)) % 16
    ensures TruncatedMessage(Build(b)) == b.desiredRecursion.GetOr(0)
  {
  }

  /** An opcode of 1 (inverse query) reads back as 2, and RD reads back as TC. */
  lemma BuildMisreadExample()
    ensures OpCode(Build(NewBuilder().WithPacketId(7).WithOpCode(1))) == 2
    ensures TruncatedMessage(Build(NewBuilder().WithPacketId(7).WithDesiredRecursion(1))) == 1
  {
    BuildMisreadFields(NewBuilder().WithPacketId(7).WithOpCode(1));
    BuildMisreadFields(NewBuilder().WithPacketId(7).WithDesiredRecursion(1));
  }

  /** With only the id set, every other octet is zero. */
  lemma BuildDefaults(id: u16)
    ensures Into(Build(NewBuilder().WithPacketId(id))) == PutU16(id) + [0, 0, 0, 0, 0, 0, 0, 0, 0, 0]
  {
  }

  // ---------------------------------------------------------------------------
  // Layout-conformant counterparts
  // ---------------------------------------------------------------------------

  /** TC: bit 1 of octet 2, as section 4.1.1 of RFC 1035 places it. */
  function TruncatedMessageRfc(h: DnsHeader): (r: byte)
    ensures r <= 1
  {
    ExtractBits(h.bytes[2], 6, 1)
  }

  /** RD: bit 0 of octet 2 (the program has no getter for it); the as-written TC getter reads this bit. */
  function DesiredRecursion(h: DnsHeader): (r: byte)
    ensures r <= 1
    ensures r == TruncatedMessage(h)
  {
    ExtractBits(h.bytes[2], 7, 1)
  }

  /** `build` with OPCODE shifted by 3, so that it occupies bits 6-3 of octet 2. */
  function BuildRfc(b: DnsHeaderBuilder): (h: DnsHeader)
    requires b.packetId.Some?
    ensures PacketId(h) == b.packetId.value
    ensures QuestionCount(h) == b.questionCount.GetOr(0)
    ensures AnswerCount(h) == b.answerCount.GetOr(0)
    ensures AuthorityCount(h) == b.authorityCount.GetOr(0)
    ensures AdditionalCount(h) == b.additionalCount.GetOr(0)
  {
    DnsHeader(Layout(b.packetId.value, FlagsHighRfc(b), FlagsLow(b), b))
  }

  /** Every field of `BuildRfc` reads back unchanged when it is in range. */
  lemma BuildRfcReadBack(b: DnsHeaderBuilder)
    requires b.packetId.Some? && FlagsAreBits(b)
    requires b.opCode.GetOr(0) <= 15 && b.responseCode.GetOr(0) <= 15
    ensures var h := BuildRfc(b);
      && QueryResponse(h) == b.queryResponse.GetOr(0)
      && OpCode(h) == b.opCode.GetOr(0)
      && AuthoritativeAnswer(h) == b.authoritativeAnswer.GetOr(0)
      && TruncatedMessageRfc(h) == b.truncatedMessage.GetOr(0)
      && DesiredRecursion(h) == b.desiredRecursion.GetOr(0)
      && AvailableRecursion(h) == b.availableRecursion.GetOr(0)
      && ResponseCode(h) == b.responseCode.GetOr(0)
      && h.bytes[3] & 0x70 == 0
  {
  }

  /** The builder that sets every field to what the getters read from `h`. */
  function BuilderOf(h: DnsHeader): DnsHeaderBuilder {
    DnsHeaderBuilder(
      Some(PacketId(h)), Some(QueryResponse(h)), Some(OpCode(h)), Some(AuthoritativeAnswer(h)),
      Some(TruncatedMessageRfc(h)), Some(DesiredRecursion(h)), Some(AvailableRecursion(h)),
      Some(ResponseCode(h)), Some(QuestionCount(h)), Some(AnswerCount(h)),
      Some(AuthorityCount(h)), Some(AdditionalCount(h)))
  }

  /** Octet 2 is the or of its five fields at their RFC positions. */
  lemma FlagsHighFields(x: byte)
    ensures x == ((x >> 7) << 7) | (((x >> 3) & 0xF) << 3) | (((x >> 2) & 1) << 2) | (((x >> 1) & 1) << 1) | (x & 1)
  {
  }

  /** With the reserved bits zero, octet 3 is RA in bit 7 or-ed with RCODE. */
  lemma FlagsLowFields(x: byte)
    requires x & 0x70 == 0
    ensures x == ((x >> 7) << 7) | (x & 0xF)
  {
  }

  lemma BuilderOfOctet2(h: DnsHeader)
    ensures FlagsHighRfc(BuilderOf(h)) == h.bytes[2]
  {
    FlagsHighFields(h.bytes[2]);
  }

  lemma BuilderOfOctet3(h: DnsHeader)
    requires h.bytes[3] & 0x70 == 0
    ensures FlagsLow(BuilderOf(h)) == h.bytes[3]
  {
    FlagsLowFields(h.bytes[3]);
  }

  lemma BuilderOfWords(h: DnsHeader)
    ensures PutU16(BuilderOf(h).packetId.value) == h.bytes[0..2]
    ensures Counts(BuilderOf(h)) == h.bytes[4..12]
  {
    PutReadU16(h.bytes[0..2]);
    PutReadU16(h.bytes[4..6]);
    PutReadU16(h.bytes[6..8]);
    PutReadU16(h.bytes[8..10]);
    PutReadU16(h.bytes[10..12]);
    assert h.bytes[4..12] == h.bytes[4..6] + h.bytes[6..8] + h.bytes[8..10] + h.bytes[10..12];
  }

  /** Any header whose reserved bits are zero is rebuilt exactly from its fields. */
  lemma BuildRfcOfFields(h: DnsHeader)
    requires h.bytes[3] & 0x70 == 0
    ensures BuildRfc(BuilderOf(h)) == h
  {
    var b := BuilderOf(h);
    BuilderOfOctet2(h);
    BuilderOfOctet3(h);
    BuilderOfWords(h);
    LayoutOfParts(b.packetId.value, FlagsHighRfc(b), FlagsLow(b), b, h.bytes);
  }

  /** Twelve octets whose parts are the id, the two flag octets and the counts are their layout. */
  lemma LayoutOfParts(id: u16, high: byte, low: byte, b: DnsHeaderBuilder, s: seq<byte>)
    requires |s| == HeaderLength && PutU16(id) == s[0..2] && high == s[2] && low == s[3]
    requires Counts(b) == s[4..12]
    ensures Layout(id, high, low, b) == s
  {
    assert s == s[0..2] + [s[2], s[3]] + s[4..12];
  }
}

=== FILE: name.dfy ===
/**
 * Domain names on the wire (sections 3.1 and 4.1.2 of RFC 1035): a name
 * held as '.'-separated text is sent as a sequence of labels, each a length
 * octet followed by that many octets, closed by a zero octet.
 *
 * The encoder splits on every '.' and writes each segment's length
 * truncated to eight bits, with no 63-octet limit. The decoder consumes
 * labels from a cursor up to the first zero length octet and follows no
 * compression pointers: a length octet of 0xC0 or more is an ordinary
 * label length. Names and labels are octet sequences.
 */
module NameCodec {
  import opened Wire

  /** A name as the program holds it: label texts joined by '.'. */
  type Name = seq<byte>

  const Dot: byte := 0x2E

  /** The labels joined by '.'; no labels give the empty name. */
  function Join(labels: seq<seq<byte>>): Name {
    if |labels| == 0 then [] else labels[0] + Dotted(labels[1..])
  }

  /** Each label preceded by a '.'. */
  function Dotted(labels: seq<seq<byte>>): seq<byte> {
    if |labels| == 0 then [] else [Dot] + labels[0] + Dotted(labels[1..])
  }

  predicate DotFree(segs: seq<seq<byte>>) {
    forall i :: 0 <= i < |segs| ==> Dot !in segs[i]
  }

  /**
   * `str::split('.')`: the maximal dot-free segments, so one more segment
   * than there are dots, and one empty segment for the empty name.
   */
  function Split(name: Name): (segs: seq<seq<byte>>)
    ensures |segs| >= 1
    ensures DotFree(segs)
    ensures Join(segs) == name
    decreases |name|
  {
    if |name| == 0 then [[]]
    else
      var tail := Split(name[1..]);
      if name[0] == Dot then
        JoinDot(tail);
        [[]] + tail
      else
        JoinCons(name[0], tail);
        [[name[0]] + tail[0]] + tail[1..]
  }

  /** Prepending an octet to the first label prepends it to the joined name. */
  lemma JoinCons(c: byte, segs: seq<seq<byte>>)
    requires |segs| >= 1
    ensures Join([[c] + segs[0]] + segs[1..]) == [c] + Join(segs)
  {
    var segs' := [[c] + segs[0]] + segs[1..];
    assert segs'[0] == [c] + segs[0];
    assert segs'[1..] == segs[1..];
    SeqAssoc([c], segs[0], Dotted(segs[1..]));
  }

  /** An empty first label contributes only the '.' that follows it. */
  lemma JoinDot(segs: seq<seq<byte>>)
    requires |segs| >= 1
    ensures Join([[]] + segs) == [Dot] + Join(segs)
  {
    var segs' := [[]] + segs;
    assert segs'[1..] == segs;
  }

  /** Splitting a join of dot-free segments gives back the segments. */
  lemma {:induction false} SplitJoin(segs: seq<seq<byte>>)
    requires |segs| >= 1 && DotFree(segs)
    ensures Split(Join(segs)) == segs
    decreases |segs|, |segs[0]|
  {
    if |segs[0]| == 0 {
      if |segs| > 1 {
        var tail := segs[1..];
        DotFreeTail(segs);
        SplitJoin(tail);
        assert segs == [[]] + tail;
        JoinDot(tail);
        assert Join(segs)[1..] == Join(tail);
      }
    } else {
      var c := segs[0][0];
      var segs' := [segs[0][1..]] + segs[1..];
      DotFreeShift(segs);
      SplitJoin(segs');
      assert segs[0] == [c] + segs'[0];
      assert segs'[1..] == segs[1..];
      assert segs == [[c] + segs'[0]] + segs'[1..];
      JoinCons(c, segs');
      assert Join(segs)[1..] == Join(segs');
    }
  }

  lemma DotFreeTail(segs: seq<seq<byte>>)
    requires |segs| >= 1 && DotFree(segs)
    ensures DotFree(segs[1..])
  {
    var tail := segs[1..];
    forall i | 0 <= i < |tail| ensures Dot !in tail[i] {
      assert tail[i] == segs[i + 1];
    }
  }

  /** Dropping the first octet of a dot-free first segment keeps the segments dot-free; that octet is no '.'. */
  lemma DotFreeShift(segs: seq<seq<byte>>)
    requires |segs| >= 1 && |segs[0]| >= 1 && DotFree(segs)
    ensures DotFree([segs[0][1..]] + segs[1..])
    ensures segs[0][0] != Dot
  {
    var segs' := [segs[0][1..]] + segs[1..];
    forall i | 0 <= i < |segs'| ensures Dot !in segs'[i] {
      if i == 0 {
        assert forall x :: x in segs'[0] ==> x in segs[0];
      } else {
        assert segs'[i] == segs[i];
      }
    }
    assert segs[0][0] in segs[0];
  }

  /** The label section: each segment as a length octet (its length mod 256) and its octets. */
  function EncodeLabels(segs: seq<seq<byte>>): seq<byte> {
    if |segs| == 0 then []
    else [(|segs[0]| % 256) as byte] + segs[0] + EncodeLabels(segs[1..])
  }

  /** The label section of one more label, then any octet: the label's length octet and octets come first. */
  lemma ConsLabel(text: seq<byte>, labels: seq<seq<byte>>, next: byte, rest: seq<byte>)
    ensures EncodeLabels([text] + labels) + [next] + rest
         == [(|text| % 256) as byte] + text + (EncodeLabels(labels) + [next] + rest)
  {
    var all := [text] + labels;
    assert all[0] == text;
    assert all[1..] == labels;
    var len := [(|text| % 256) as byte];
    var tail := EncodeLabels(labels);
    assert EncodeLabels(all) == len + text + tail;
    assert (len + text + tail) + [next] + rest == len + text + (tail + [next] + rest);
  }

  /** `utils::encode`: every segment of the name as a label, then the zero octet. */
  function Encode(name: Name): (r: seq<byte>)
    ensures |r| == |name| + 2
    ensures r[|r| - 1] == 0
  {
    EncodedLength(Split(name));
    EncodeLabels(Split(name)) + [0]
  }

  /** A label section is one octet longer than the joined name, given at least one segment. */
  lemma EncodedLength(segs: seq<seq<byte>>)
    requires |segs| >= 1
    ensures |EncodeLabels(segs)| == |Join(segs)| + 1
  {
    EncodedLengthDotted(segs[1..]);
  }

  /** A length octet takes the place of each '.'. */
  lemma {:induction false} EncodedLengthDotted(segs: seq<seq<byte>>)
    ensures |EncodeLabels(segs)| == |Dotted(segs)|
    decreases |segs|
  {
    if |segs| > 0 {
      EncodedLengthDotted(segs[1..]);
    }
  }

  /** Labels the decoder reads back: non-empty, with a length that fits in one octet. */
  predicate LabelsFit(labels: seq<seq<byte>>) {
    forall i :: 0 <= i < |labels| ==> 0 < |labels[i]| < 256
  }

  /** A name that survives encoding: every '.'-separated segment is 1 to 255 octets. */
  predicate WellFormed(name: Name) {
    LabelsFit(Split(name))
  }

  /**
   * The loop of `utils::decode`: read a length octet (none left: panic),
   * stop at zero, otherwise copy that many octets (too few: panic) and go on.
   * What it consumed is exactly the label section of what it returns.
   */
  function DecodeLabels(buf: seq<byte>): (r: Option<(seq<seq<byte>>, seq<byte>)>)
    ensures r.Some? ==> LabelsFit(r.value.0) && buf == EncodeLabels(r.value.0) + [0] + r.value.1
    decreases |buf|
  {
    if |buf| == 0 then None
    else if buf[0] == 0 then
      assert buf == EncodeLabels([]) + [0] + buf[1..];
      Some(([], buf[1..]))
    else
      var copied := CopyToBytes(buf[1..], buf[0] as int);
      if copied.None? then None
      else
        var tail := DecodeLabels(copied.value.1);
        if tail.None? then None
        else
          DecodedLabel(buf, copied.value.0, copied.value.1, tail.value.0, tail.value.1);
          Some(([copied.value.0] + tail.value.0, tail.value.1))
  }

  /** One step of the decoder: a length octet, that many octets, then the decoded remainder. */
  lemma DecodedLabel(buf: seq<byte>, text: seq<byte>, after: seq<byte>, labels: seq<seq<byte>>, rest: seq<byte>)
    requires |buf| >= 1 && buf[0] != 0 && |text| == buf[0] as int && buf[1..] == text + after
    requires LabelsFit(labels) && after == EncodeLabels(labels) + [0] + rest
    ensures LabelsFit([text] + labels)
    ensures buf == EncodeLabels([text] + labels) + [0] + rest
  {
    LengthOctet(buf[0], |text|);
    LabelsFitCons(text, labels);
    ConsLabel(text, labels, 0, rest);
    calc {
      buf;
      [buf[0]] + buf[1..];
      [buf[0]] + (text + after);
      { SeqAssoc([buf[0]], text, after); }
      [buf[0]] + text + after;
    }
  }


  /** A non-zero length octet read as a count is a label length the encoder writes back as that octet. */
  lemma LengthOctet(b: byte, n: int)
    requires b != 0 && n == b as int
    ensures 0 < n < 256 && b == (n % 256) as byte
  {
    OctetBound(b);
    ByteLength(b);
  }

  lemma LabelsFitCons(text: seq<byte>, labels: seq<seq<byte>>)
    requires 0 < |text| < 256 && LabelsFit(labels)
    ensures LabelsFit([text] + labels)
  {
    var all := [text] + labels;
    forall i | 0 <= i < |all| ensures 0 < |all[i]| < 256 {
      if i > 0 {
        assert all[i] == labels[i - 1];
      }
    }
  }

  /**
   * `utils::decode`: the labels joined by '.' (the program pushes a '.' after
   * each text and pops the last one), and the cursor after the zero octet.
   */
  function Decode(buf: seq<byte>): (r: Option<(Name, seq<byte>)>)
    ensures r.Some? ==>
      var consumed := |buf| - |r.value.1|;
      1 <= consumed && buf[consumed - 1] == 0 && buf[consumed..] == r.value.1
    ensures |buf| >= 1 && buf[0] == 0 ==> r == Some(([], buf[1..]))
    ensures |buf| == 0 ==> r.None?
  {
    var decoded := DecodeLabels(buf);
    if decoded.None? then None
    else
      var (labels, rest) := decoded.value;
      assert buf[|buf| - |rest|..] == rest;
      Some((Join(labels), rest))
  }

  // ---------------------------------------------------------------------------
  // Round trips
  // ---------------------------------------------------------------------------

  lemma {:induction false} DecodeLabelsOfEncoded(labels: seq<seq<byte>>, rest: seq<byte>)
    requires LabelsFit(labels)
    ensures DecodeLabels(EncodeLabels(labels) + [0] + rest) == Some((labels, rest))
    decreases |labels|
  {
    var buf := EncodeLabels(labels) + [0] + rest;
    if |labels| == 0 {
      assert buf == [0] + rest;
    } else {
      var text := labels[0];
      var after := EncodeLabels(labels[1..]) + [0] + rest;
      LabelsFitTail(labels);
      assert buf[0] as int == |text| by {
        assert buf[0] == (|text| % 256) as byte;
        LengthByte(|text|);
      }
      assert buf[1..] == text + after;
      CopyToBytesPrefix(text, after);
      DecodeLabelsOfEncoded(labels[1..], rest);
      assert [text] + labels[1..] == labels;
    }
  }

  /** Decoding an encoded well-formed name gives the name back and leaves what followed. */
  lemma DecodeOfEncoded(name: Name, rest: seq<byte>)
    requires WellFormed(name)
    ensures Decode(Encode(name) + rest) == Some((name, rest))
  {
    DecodeLabelsOfEncoded(Split(name), rest);
    assert Encode(name) + rest == EncodeLabels(Split(name)) + [0] + rest;
  }

  /**
   * Encoding a decoded name reproduces the octets the decoder consumed,
   * provided it read at least one text and no text contains a '.' octet.
   */
  lemma EncodeOfDecoded(buf: seq<byte>)
    requires DecodeLabels(buf).Some?
    requires |DecodeLabels(buf).value.0| >= 1 && DotFree(DecodeLabels(buf).value.0)
    ensures Decode(buf).Some?
    ensures Encode(Decode(buf).value.0) + Decode(buf).value.1 == buf
  {
    SplitJoin(DecodeLabels(buf).value.0);
  }

  /** `encode("")` writes one empty text and the terminator. */
  lemma EncodeEmpty()
    ensures Encode([]) == [0, 0]
  {
    assert Split([]) == [[]];
    assert EncodeLabels([[]]) == [0] by {
      assert (0 % 256) as byte == 0;
    }
  }

  /** The empty name does not survive a round trip: decoding stops at its first zero octet. */
  lemma EmptyName(rest: seq<byte>)
    ensures Encode([]) == [0, 0]
    ensures Decode(Encode([]) + rest) == Some(([], [0] + rest))
  {
    EncodeEmpty();
    var buf := Encode([]) + rest;
    assert buf[0] == 0;
    assert buf[1..] == [0] + rest;
  }

  // ---------------------------------------------------------------------------
  // Failures and the absent RFC limits
  // ---------------------------------------------------------------------------

  /** Without a zero octet anywhere the decoder runs off the end of the buffer. */
  lemma DecodeNeedsTerminator(buf: seq<byte>)
    requires 0 !in buf
    ensures Decode(buf).None?
  {
  }

  /** A label the decoder can read passes a failure of what follows it on to the whole. */
  lemma {:induction false} DecodeLabelsFailsAfter(text: seq<byte>, after: seq<byte>)
    requires 0 < |text| < 256 && DecodeLabels(after).None?
    ensures DecodeLabels([(|text| % 256) as byte] + text + after).None?
  {
    var buf := [(|text| % 256) as byte] + text + after;
    assert buf[0] as int == |text| by {
      assert buf[0] == (|text| % 256) as byte;
      LengthByte(|text|);
    }
    assert buf[1..] == text + after;
    CopyToBytesPrefix(text, after);
    assert CopyToBytes(buf[1..], buf[0] as int) == Some((text, after));
  }

  /**
   * After any number of labels, a non-zero length octet asking for more
   * octets than remain makes the label decoder fail.
   */
  lemma {:induction false} DecodeLabelsShort(labels: seq<seq<byte>>, len: byte, tail: seq<byte>)
    requires LabelsFit(labels) && len != 0 && len as int > |tail|
    ensures DecodeLabels(EncodeLabels(labels) + [len] + tail).None?
    decreases |labels|
  {
    if |labels| == 0 {
      var buf := EncodeLabels(labels) + [len] + tail;
      assert buf == [len] + tail;
      assert CopyToBytes(buf[1..], len as int).None?;
    } else {
      var text := labels[0];
      LabelsFitTail(labels);
      DecodeLabelsShort(labels[1..], len, tail);
      assert [text] + labels[1..] == labels;
      ConsLabel(text, labels[1..], len, tail);
      DecodeLabelsFailsAfter(text, EncodeLabels(labels[1..]) + [len] + tail);
    }
  }

  /** Whatever labels came before it, a length octet pointing past the end makes decoding fail. */
  lemma DecodeShortLabel(labels: seq<seq<byte>>, len: byte, tail: seq<byte>)
    requires LabelsFit(labels) && len != 0 && len as int > |tail|
    ensures Decode(EncodeLabels(labels) + [len] + tail).None?
  {
    DecodeLabelsShort(labels, len, tail);
  }

  /** Labels that fit still fit without their first. */
  lemma LabelsFitTail(labels: seq<seq<byte>>)
    requires |labels| >= 1 && LabelsFit(labels)
    ensures LabelsFit(labels[1..])
  {
    forall i | 0 <= i < |labels[1..]| ensures 0 < |labels[1..][i]| < 256 {
      assert labels[1..][i] == labels[i + 1];
    }
  }

  /**
   * Any non-zero first octet, including one of 0xC0 or more that section
   * 4.1.4 of RFC 1035 reserves for compression pointers, is read as the
   * length of a first label made of the octets that follow it.
   */
  lemma FirstOctetIsLength(buf: seq<byte>)
    requires |buf| >= 1 && buf[0] != 0 && DecodeLabels(buf).Some?
    ensures |DecodeLabels(buf).value.0| >= 1
    ensures |buf| >= 1 + buf[0] as int
    ensures DecodeLabels(buf).value.0[0] == buf[1..1 + buf[0] as int]
  {
    var n := buf[0] as int;
    var copied := CopyToBytes(buf[1..], n);
    assert copied.Some?;
    var tail := DecodeLabels(copied.value.1);
    assert tail.Some?;
    assert DecodeLabels(buf).value.0 == [copied.value.0] + tail.value.0;
    assert copied.value.0 == buf[1..][..n] == buf[1..1 + n];
  }

  /** A compression pointer to offset 12 followed by fewer than 191 octets is a label too long for the buffer. */
  lemma PointerNotFollowed(rest: seq<byte>)
    requires |rest| < 191
    ensures Decode([0xC0, 0x0C] + rest).None?
  {
    assert [0xC0, 0x0C] + rest == EncodeLabels([]) + [0xC0] + ([0x0C] + rest);
    DecodeShortLabel([], 0xC0, [0x0C] + rest);
  }

  /** A name without a '.' is one segment. */
  lemma SplitDotFree(name: Name)
    requires Dot !in name
    ensures Split(name) == [name]
  {
    assert DotFree([name]);
    assert Join([name]) == name + Dotted([]);
    SplitJoin([name]);
  }

  /**
   * A name without a '.' is written as one label whose length octet is the
   * name's length mod 256, with no 63-octet limit (section 2.3.4 of
   * RFC 1035): a 300-octet name gets length 44.
   */
  lemma {:induction false} SegmentLengthOctet(name: Name)
    requires Dot !in name
    ensures Encode(name) == [(|name| % 256) as byte] + name + [0]
  {
    var len := [(|name| % 256) as byte];
    SplitDotFree(name);
    assert Encode(name) == EncodeLabels([name]) + [0];
    assert EncodeLabels([name]) == len + name by {
      assert [name][0] == name && [name][1..] == [];
      assert EncodeLabels([name]) == len + name + EncodeLabels([]);
      assert EncodeLabels([]) == [];
    }
  }

  /**
   * The truncation at its sharpest: a 256-octet segment gets length 0, so
   * its encoding decodes as the empty name, leaving the segment unread.
   */
  lemma LongSegmentTruncated(name: Name, rest: seq<byte>)
    requires |name| == 256 && Dot !in name
    ensures Encode(name)[0] == 0
    ensures Decode(Encode(name) + rest) == Some(([], name + [0] + rest))
  {
    SegmentLengthOctet(name);
    assert (|name| % 256) as byte == 0;
    var buf := Encode(name) + rest;
    assert buf == [0] + (name + [0] + rest);
    assert buf[1..] == name + [0] + rest;
  }
}

=== FILE: packet.dfy ===
/**
 * A whole message: the header, then the question entries, then the answer
 * records. Serialisation writes as many entries as the header's counts ask
 * for and the packet holds; parsing reads the header from the first twelve
 * octets and then exactly as many entries as its counts announce, each
 * from where the previous one stopped.
 */
module PacketCodec {
  import opened Wire
  import HeaderCodec
  import NameCodec
  import QuestionCodec
  import RecordCodec

  datatype DnsPacket = DnsPacket(
    header: HeaderCodec.DnsHeader,
    questions: seq<QuestionCodec.DnsQuestion>,
    answers: seq<RecordCodec.DnsRecord>)

  /** The first `n` entries of `xs`, or all of them when there are fewer. */
  function Prefix<T>(xs: seq<T>, n: nat): (p: seq<T>)
    ensures |p| == if n < |xs| then n else |xs|
    ensures forall i :: 0 <= i < |p| ==> p[i] == xs[i]
  {
    if n < |xs| then xs[..n] else xs
  }

  /** The question encodings, in order, one after another. */
  function EncodeQuestions(qs: seq<QuestionCodec.DnsQuestion>): seq<byte> {
    Concat(qs, QuestionCodec.Encode)
  }

  /** The record encodings, in order, one after another. */
  function EncodeAnswers(rs: seq<RecordCodec.DnsRecord>): seq<byte> {
    Concat(rs, RecordCodec.Encode)
  }

  /**
   * `From<DnsPacket> for Bytes`: the header's octets, then the first
   * `question_count` questions the packet holds, then the first
   * `answer_count` answers it holds.
   */
  function Serialize(p: DnsPacket): (out: seq<byte>)
    ensures |out| >= HeaderCodec.HeaderLength
    ensures out[..HeaderCodec.HeaderLength] == HeaderCodec.Into(p.header)
  {
    var h := HeaderCodec.Into(p.header);
    var body := EncodeQuestions(Prefix(p.questions, HeaderCodec.QuestionCount(p.header) as nat))
      + EncodeAnswers(Prefix(p.answers, HeaderCodec.AnswerCount(p.header) as nat));
    SeqAssoc(h, EncodeQuestions(Prefix(p.questions, HeaderCodec.QuestionCount(p.header) as nat)),
             EncodeAnswers(Prefix(p.answers, HeaderCodec.AnswerCount(p.header) as nat)));
    assert (h + body)[..|h|] == h;
    h + body
  }

  /**
   * The two loops of `From<DnsPacket> for Bytes`: index 0 up to each count,
   * appending the entry at that index when the packet has one and skipping
   * it silently when it does not.
   */
  method ToBytes(p: DnsPacket) returns (out: seq<byte>)
    ensures out == Serialize(p)
  {
    var h := HeaderCodec.Into(p.header);
    var withQuestions := AppendQuestions(h, p.questions, HeaderCodec.QuestionCount(p.header) as nat);
    out := AppendAnswers(withQuestions, p.answers, HeaderCodec.AnswerCount(p.header) as nat);
    SeqAssoc(h, EncodeQuestions(Prefix(p.questions, HeaderCodec.QuestionCount(p.header) as nat)),
             EncodeAnswers(Prefix(p.answers, HeaderCodec.AnswerCount(p.header) as nat)));
  }

  /** The question loop: for each index below `count`, append the question there if there is one. */
  method AppendQuestions(start: seq<byte>, qs: seq<QuestionCodec.DnsQuestion>, count: nat) returns (out: seq<byte>)
    ensures out == start + EncodeQuestions(Prefix(qs, count))
  {
    out := start;
    var i := 0;
    while i < count
      invariant 0 <= i <= count
      invariant out == start + EncodeQuestions(Prefix(qs, i))
    {
      if i < |qs| {
        PrefixStep(qs, i);
        ConcatSnoc(Prefix(qs, i), qs[i], QuestionCodec.Encode);
        SeqAssoc(start, EncodeQuestions(Prefix(qs, i)), QuestionCodec.Encode(qs[i]));
        out := out + QuestionCodec.Encode(qs[i]);
      } else {
        assert Prefix(qs, i + 1) == Prefix(qs, i);
      }
      i := i + 1;
    }
  }

  /** The answer loop: for each index below `count`, append the record there if there is one. */
  method AppendAnswers(start: seq<byte>, rs: seq<RecordCodec.DnsRecord>, count: nat) returns (out: seq<byte>)
    ensures out == start + EncodeAnswers(Prefix(rs, count))
  {
    out := start;
    var j := 0;
    while j < count
      invariant 0 <= j <= count
      invariant out == start + EncodeAnswers(Prefix(rs, j))
    {
      if j < |rs| {
        PrefixStep(rs, j);
        ConcatSnoc(Prefix(rs, j), rs[j], RecordCodec.Encode);
        SeqAssoc(start, EncodeAnswers(Prefix(rs, j)), RecordCodec.Encode(rs[j]));
        out := out + RecordCodec.Encode(rs[j]);
      } else {
        assert Prefix(rs, j + 1) == Prefix(rs, j);
      }
      j := j + 1;
    }
  }

  lemma PrefixStep<T>(xs: seq<T>, i: nat)
    requires i < |xs|
    ensures Prefix(xs, i + 1) == Prefix(xs, i) + [xs[i]]
  {
  }

  /** The header counts say how many entries the packet carries. */
  predicate CountsMatch(p: DnsPacket) {
    HeaderCodec.QuestionCount(p.header) as int == |p.questions|
    && HeaderCodec.AnswerCount(p.header) as int == |p.answers|
  }

  /**
   * When the counts are at least the number of entries, every entry is
   * written, in order: the output is the header, all questions, all answers.
   */
  lemma SerializeAll(p: DnsPacket)
    requires HeaderCodec.QuestionCount(p.header) as int >= |p.questions|
    requires HeaderCodec.AnswerCount(p.header) as int >= |p.answers|
    ensures Serialize(p) == HeaderCodec.Into(p.header) + EncodeQuestions(p.questions) + EncodeAnswers(p.answers)
  {
  }

  /** Entries past the header's counts are not written: appending more changes nothing. */
  lemma SerializeDropsExtra(p: DnsPacket, moreQuestions: seq<QuestionCodec.DnsQuestion>, moreAnswers: seq<RecordCodec.DnsRecord>)
    requires |p.questions| >= HeaderCodec.QuestionCount(p.header) as int
    requires |p.answers| >= HeaderCodec.AnswerCount(p.header) as int
    ensures Serialize(p.(questions := p.questions + moreQuestions, answers := p.answers + moreAnswers)) == Serialize(p)
  {
    var qc := HeaderCodec.QuestionCount(p.header) as nat;
    var ac := HeaderCodec.AnswerCount(p.header) as nat;
    assert Prefix(p.questions + moreQuestions, qc) == Prefix(p.questions, qc);
    assert Prefix(p.answers + moreAnswers, ac) == Prefix(p.answers, ac);
  }

  // ---------------------------------------------------------------------------
  // Parsing
  // ---------------------------------------------------------------------------

  /** `n` questions, each decoded where the previous one stopped. */
  function ParseQuestions(buf: seq<byte>, n: nat): (r: Option<(seq<QuestionCodec.DnsQuestion>, seq<byte>)>)
    ensures r.Some? ==> |r.value.0| == n && IsSuffix(r.value.1, buf)
    decreases n
  {
    if n == 0 then Some(([], buf))
    else
      var first := QuestionCodec.Decode(buf);
      if first.None? then None
      else
        var (q, after) := first.value;
        SuffixOf(buf, after);
        var tail := ParseQuestions(after, n - 1);
        if tail.None? then None
        else
          SuffixTrans(buf, after, tail.value.1);
          Some(([q] + tail.value.0, tail.value.1))
  }

  /** `n` records, each decoded where the previous one stopped. */
  function ParseAnswers(buf: seq<byte>, n: nat): (r: Option<(seq<RecordCodec.DnsRecord>, seq<byte>)>)
    ensures r.Some? ==> |r.value.0| == n && IsSuffix(r.value.1, buf)
    decreases n
  {
    if n == 0 then Some(([], buf))
    else
      var first := RecordCodec.FromBytes(buf);
      if first.None? then None
      else
        var (a, after) := first.value;
        RecordSuffixOf(buf, after);
        var tail := ParseAnswers(after, n - 1);
        if tail.None? then None
        else
          SuffixTrans(buf, after, tail.value.1);
          Some(([a] + tail.value.0, tail.value.1))
  }

  /** `rest` is what is left of `buf` after a prefix of it was consumed. */
  predicate IsSuffix(rest: seq<byte>, buf: seq<byte>) {
    |rest| <= |buf| && buf[|buf| - |rest|..] == rest
  }

  lemma SuffixTrans(buf: seq<byte>, mid: seq<byte>, rest: seq<byte>)
    requires IsSuffix(mid, buf) && IsSuffix(rest, mid)
    ensures IsSuffix(rest, buf)
  {
    assert buf[|buf| - |rest|..] == buf[|buf| - |mid|..][|mid| - |rest|..];
  }

  /** What a question decoder leaves is a suffix of its input. */
  lemma SuffixOf(buf: seq<byte>, after: seq<byte>)
    requires QuestionCodec.Decode(buf).Some? && QuestionCodec.Decode(buf).value.1 == after
    ensures IsSuffix(after, buf)
  {
    var (q, rest) := QuestionCodec.Decode(buf).value;
    var mid := NameCodec.Decode(buf).value.1;
    assert mid == PutU16(q.recordType) + PutU16(q.recordClass) + rest;
    assert mid[|mid| - |rest|..] == rest;
    SuffixTrans(buf, mid, rest);
  }

  /** What a record decoder leaves is a suffix of its input. */
  lemma RecordSuffixOf(buf: seq<byte>, after: seq<byte>)
    requires RecordCodec.FromBytes(buf).Some? && RecordCodec.FromBytes(buf).value.1 == after
    ensures IsSuffix(after, buf)
  {
    var (rec, rest) := RecordCodec.FromBytes(buf).value;
    var mid := NameCodec.Decode(buf).value.1;
    var fixed := RecordCodec.FixedFields(rec.recordType, rec.recordClass, rec.ttl, rec.length);
    assert mid == fixed + rec.data + rest;
    assert mid[|mid| - |rest|..] == rest;
    SuffixTrans(buf, mid, rest);
  }

  /**
   * The decode order of `parse_request`: the header from the first twelve
   * octets, then `question_count` questions, then `answer_count` records,
   * each from where the previous stopped, returning what is left.
   */
  function Parse(buf: seq<byte>): (r: Option<(DnsPacket, seq<byte>)>)
    ensures |buf| < HeaderCodec.HeaderLength ==> r.None?
    ensures r.Some? ==>
      var (p, rest) := r.value;
      HeaderCodec.Into(p.header) == buf[..HeaderCodec.HeaderLength]
      && CountsMatch(p)
      && IsSuffix(rest, buf)
  {
    if |buf| < HeaderCodec.HeaderLength then None
    else
      var header := HeaderCodec.TryFrom(buf[..HeaderCodec.HeaderLength]);
      if header.Err? then None
      else
        var h := header.value;
        var body := buf[HeaderCodec.HeaderLength..];
        var questions := ParseQuestions(body, HeaderCodec.QuestionCount(h) as nat);
        if questions.None? then None
        else
          var answers := ParseAnswers(questions.value.1, HeaderCodec.AnswerCount(h) as nat);
          if answers.None? then None
          else
            SuffixTrans(body, questions.value.1, answers.value.1);
            SuffixTrans(buf, body, answers.value.1);
            Some((DnsPacket(h, questions.value.0, answers.value.0), answers.value.1))
  }

  /** Every question's name is one the name codec gives back. */
  predicate QuestionsWellFormed(qs: seq<QuestionCodec.DnsQuestion>)
    decreases |qs|
  {
    |qs| == 0 || (NameCodec.WellFormed(qs[0].name) && QuestionsWellFormed(qs[1..]))
  }

  /** Every record's name is one the name codec gives back, and its length field is its data's size. */
  predicate AnswersWellFormed(rs: seq<RecordCodec.DnsRecord>)
    decreases |rs|
  {
    |rs| == 0
    || (NameCodec.WellFormed(rs[0].name) && RecordCodec.Consistent(rs[0]) && AnswersWellFormed(rs[1..]))
  }

  lemma {:induction false} ParseQuestionsOfEncoded(qs: seq<QuestionCodec.DnsQuestion>, rest: seq<byte>)
    requires QuestionsWellFormed(qs)
    ensures ParseQuestions(EncodeQuestions(qs) + rest, |qs|) == Some((qs, rest))
    decreases |qs|
  {
    if |qs| == 0 {
      ParseQuestionsNil(qs, rest);
    } else {
      ParseQuestionsOfEncoded(qs[1..], rest);
      ParseQuestionsCons(qs, rest);
    }
  }

  lemma ParseQuestionsNil(qs: seq<QuestionCodec.DnsQuestion>, rest: seq<byte>)
    requires |qs| == 0
    ensures ParseQuestions(EncodeQuestions(qs) + rest, |qs|) == Some((qs, rest))
  {
    EmptyFront(qs, []);
    EmptyFront(EncodeQuestions(qs), rest);
  }

  /** A well-formed first question in front of questions that parse back parses back with them. */
  lemma ParseQuestionsCons(qs: seq<QuestionCodec.DnsQuestion>, rest: seq<byte>)
    requires |qs| >= 1 && NameCodec.WellFormed(qs[0].name)
    requires ParseQuestions(EncodeQuestions(qs[1..]) + rest, |qs[1..]|) == Some((qs[1..], rest))
    ensures ParseQuestions(EncodeQuestions(qs) + rest, |qs|) == Some((qs, rest))
  {
    SeqAssoc(QuestionCodec.Encode(qs[0]), EncodeQuestions(qs[1..]), rest);
    QuestionCodec.DecodeOfEncoded(qs[0], EncodeQuestions(qs[1..]) + rest);
    HeadTail(qs);
  }

  lemma {:induction false} ParseAnswersOfEncoded(rs: seq<RecordCodec.DnsRecord>, rest: seq<byte>)
    requires AnswersWellFormed(rs)
    ensures ParseAnswers(EncodeAnswers(rs) + rest, |rs|) == Some((rs, rest))
    decreases |rs|
  {
    if |rs| == 0 {
      ParseAnswersNil(rs, rest);
    } else {
      ParseAnswersOfEncoded(rs[1..], rest);
      ParseAnswersCons(rs, rest);
    }
  }

  lemma ParseAnswersNil(rs: seq<RecordCodec.DnsRecord>, rest: seq<byte>)
    requires |rs| == 0
    ensures ParseAnswers(EncodeAnswers(rs) + rest, |rs|) == Some((rs, rest))
  {
    EmptyFront(rs, []);
    EmptyFront(EncodeAnswers(rs), rest);
  }

  /** A consistent, well-named first record in front of records that parse back parses back with them. */
  lemma ParseAnswersCons(rs: seq<RecordCodec.DnsRecord>, rest: seq<byte>)
    requires |rs| >= 1 && NameCodec.WellFormed(rs[0].name) && RecordCodec.Consistent(rs[0])
    requires ParseAnswers(EncodeAnswers(rs[1..]) + rest, |rs[1..]|) == Some((rs[1..], rest))
    ensures ParseAnswers(EncodeAnswers(rs) + rest, |rs|) == Some((rs, rest))
  {
    SeqAssoc(RecordCodec.Encode(rs[0]), EncodeAnswers(rs[1..]), rest);
    RecordCodec.FromBytesOfEncoded(rs[0], EncodeAnswers(rs[1..]) + rest);
    HeadTail(rs);
  }

  /**
   * Parsing a serialised packet gives it back and leaves what followed,
   * when its counts match its entries, its names are well formed and its
   * records' length fields are their data's sizes.
   */
  lemma ParseOfSerialize(p: DnsPacket, rest: seq<byte>)
    requires CountsMatch(p) && QuestionsWellFormed(p.questions) && AnswersWellFormed(p.answers)
    ensures Parse(Serialize(p) + rest) == Some((p, rest))
  {
    var h := HeaderCodec.Into(p.header);
    var questions := EncodeQuestions(p.questions);
    var answers := EncodeAnswers(p.answers);
    SerializeLayout(p, rest);
    ParseQuestionsOfEncoded(p.questions, answers + rest);
    ParseAnswersOfEncoded(p.answers, rest);
    ParseSections(Serialize(p) + rest, p.header, p.questions, answers + rest, p.answers, rest);
  }

  /** A serialised packet whose counts match its entries, followed by more octets, section by section. */
  lemma SerializeLayout(p: DnsPacket, rest: seq<byte>)
    requires CountsMatch(p)
    ensures var buf := Serialize(p) + rest;
      |buf| >= HeaderCodec.HeaderLength
      && buf[..HeaderCodec.HeaderLength] == HeaderCodec.Into(p.header)
      && buf[HeaderCodec.HeaderLength..] == EncodeQuestions(p.questions) + (EncodeAnswers(p.answers) + rest)
  {
    var h := HeaderCodec.Into(p.header);
    var questions := EncodeQuestions(p.questions);
    var answers := EncodeAnswers(p.answers);
    var buf := Serialize(p) + rest;
    assert buf == h + (questions + (answers + rest)) by {
      SerializeAll(p);
      SeqAssoc(h + questions, answers, rest);
      SeqAssoc(h, questions, answers + rest);
    }
  }

  /** `Parse` reads the header, then the questions, then the answers, each where the previous stopped. */
  lemma ParseSections(buf: seq<byte>, h: HeaderCodec.DnsHeader,
                      qs: seq<QuestionCodec.DnsQuestion>, mid: seq<byte>,
                      rs: seq<RecordCodec.DnsRecord>, rest: seq<byte>)
    requires |buf| >= HeaderCodec.HeaderLength && buf[..HeaderCodec.HeaderLength] == HeaderCodec.Into(h)
    requires ParseQuestions(buf[HeaderCodec.HeaderLength..], HeaderCodec.QuestionCount(h) as nat) == Some((qs, mid))
    requires ParseAnswers(mid, HeaderCodec.AnswerCount(h) as nat) == Some((rs, rest))
    ensures Parse(buf) == Some((DnsPacket(h, qs, rs), rest))
  {
    HeaderCodec.IntoThenTryFrom(h);
  }

  // ---------------------------------------------------------------------------
  // The forwarded query
  // ---------------------------------------------------------------------------

  /** The header `forward_dns` sends: id 123, recursion desired, one question, every other field zero. */
  const ForwardBuilder := HeaderCodec.NewBuilder()
    .WithPacketId(123).WithQueryResponse(0).WithOpCode(0).WithAuthoritativeAnswer(0)
    .WithTruncatedMessage(0).WithDesiredRecursion(1).WithAvailableRecursion(0).WithResponseCode(0)
    .WithQuestionCount(1).WithAnswerCount(0).WithAuthorityCount(0).WithAdditionalCount(0)

  /** The packet `forward_dns` sends to the resolver: that header, the question, no answers. */
  function ForwardQuery(q: QuestionCodec.DnsQuestion): (p: DnsPacket)
    ensures p.questions == [q] && p.answers == []
    ensures HeaderCodec.QuestionCount(p.header) == 1 && HeaderCodec.AnswerCount(p.header) == 0
    ensures CountsMatch(p)
  {
    DnsPacket(HeaderCodec.BuildRfc(ForwardBuilder), [q], [])
  }

  /**
   * The forwarded query is twelve header octets (id 123, only RD set, one
   * question) followed by the question's encoding; the builder as written
   * packs the same header, since OPCODE is zero.
   */
  lemma ForwardQueryBytes(q: QuestionCodec.DnsQuestion)
    ensures Serialize(ForwardQuery(q)) == [0, 123, 1, 0, 0, 1, 0, 0, 0, 0, 0, 0] + QuestionCodec.Encode(q)
    ensures HeaderCodec.Build(ForwardBuilder) == HeaderCodec.BuildRfc(ForwardBuilder)
  {
    var h := HeaderCodec.BuildRfc(ForwardBuilder);
    assert HeaderCodec.Into(h) == [0, 123, 1, 0, 0, 1, 0, 0, 0, 0, 0, 0];
    ConcatSingle(q, QuestionCodec.Encode);
    SerializeAll(ForwardQuery(q));
  }

  /** The forwarded header read field by field: id 123, recursion desired, one question, all else zero. */
  lemma ForwardQueryHeader(q: QuestionCodec.DnsQuestion)
    ensures var h := ForwardQuery(q).header;
      HeaderCodec.PacketId(h) == 123
      && HeaderCodec.QueryResponse(h) == 0 && HeaderCodec.OpCode(h) == 0
      && HeaderCodec.AuthoritativeAnswer(h) == 0 && HeaderCodec.TruncatedMessageRfc(h) == 0
      && HeaderCodec.DesiredRecursion(h) == 1 && HeaderCodec.AvailableRecursion(h) == 0
      && HeaderCodec.ResponseCode(h) == 0
      && HeaderCodec.QuestionCount(h) == 1 && HeaderCodec.AnswerCount(h) == 0
      && HeaderCodec.AuthorityCount(h) == 0 && HeaderCodec.AdditionalCount(h) == 0
  {
    HeaderCodec.BuildRfcReadBack(ForwardBuilder);
  }

  /**
   * The pure end of `forward_dns`: parse the resolver's reply and take its
   * first answer. Where the program panics (the reply does not parse, or
   * it holds no answer) there is none.
   */
  function FirstAnswer(reply: seq<byte>): (r: Option<RecordCodec.DnsRecord>)
    ensures r.Some? <==> Parse(reply).Some? && |Parse(reply).value.0.answers| >= 1
  {
    var parsed := Parse(reply);
    if parsed.None? || |parsed.value.0.answers| == 0 then None
    else Some(parsed.value.0.answers[0])
  }

  /** A reply that serialises a packet with answers yields its first answer, whatever follows it. */
  lemma FirstAnswerOfReply(p: DnsPacket, rest: seq<byte>)
    requires CountsMatch(p) && QuestionsWellFormed(p.questions) && AnswersWellFormed(p.answers)
    requires |p.answers| >= 1
    ensures FirstAnswer(Serialize(p) + rest) == Some(p.answers[0])
  {
    ParseOfSerialize(p, rest);
  }

  /** A reply that serialises a packet without answers yields none. */
  lemma NoAnswerInReply(p: DnsPacket, rest: seq<byte>)
    requires CountsMatch(p) && QuestionsWellFormed(p.questions) && AnswersWellFormed(p.answers)
    requires |p.answers| == 0
    ensures FirstAnswer(Serialize(p) + rest).None?
  {
    ParseOfSerialize(p, rest);
  }
}

=== FILE: question.dfy ===
/**
 * A question entry (section 4.1.2 of RFC 1035): the queried name as labels,
 * then QTYPE and QCLASS as big-endian 16-bit words. The getters of the
 * program are the fields of the datatype.
 */
module QuestionCodec {
  import opened Wire
  import NameCodec

  datatype DnsQuestion = DnsQuestion(name: NameCodec.Name, recordType: u16, recordClass: u16)

  /** `From<&DnsQuestion> for Bytes`: the encoded name, the type word, the class word. */
  function Encode(q: DnsQuestion): (r: seq<byte>)
    ensures |r| == |q.name| + 6
  {
    NameCodec.Encode(q.name) + PutU16(q.recordType) + PutU16(q.recordClass)
  }

  /** The encoded name comes first, then the type and the class, each read back big-endian. */
  lemma EncodeFields(q: DnsQuestion)
    ensures var r := Encode(q);
      r[..|q.name| + 2] == NameCodec.Encode(q.name)
      && ReadU16(r[|q.name| + 2..]) == q.recordType
      && ReadU16(r[|q.name| + 4..]) == q.recordClass
  {
    var name := NameCodec.Encode(q.name);
    var r := Encode(q);
    assert r[..|name|] == name;
    assert r[|name|..] == PutU16(q.recordType) + PutU16(q.recordClass);
    assert r[|name| + 2..] == PutU16(q.recordClass) + [];
    ReadPutU16(q.recordType, PutU16(q.recordClass));
    ReadPutU16(q.recordClass, []);
  }

  /**
   * `From<&mut Bytes> for DnsQuestion`: the name, then the type, then the
   * class, each read where the previous one stopped. It fails where the
   * program panics: the name does not decode, or fewer than four octets
   * follow it.
   */
  function Decode(buf: seq<byte>): (r: Option<(DnsQuestion, seq<byte>)>)
    ensures r.Some? <==> NameCodec.Decode(buf).Some? && |NameCodec.Decode(buf).value.1| >= 4
    ensures r.Some? ==>
      var (q, rest) := r.value;
      q.name == NameCodec.Decode(buf).value.0
      && NameCodec.Decode(buf).value.1 == PutU16(q.recordType) + PutU16(q.recordClass) + rest
  {
    var name := NameCodec.Decode(buf);
    if name.None? then None
    else
      var recordType := GetU16(name.value.1);
      if recordType.None? then None
      else
        var recordClass := GetU16(recordType.value.1);
        if recordClass.None? then None
        else Some((DnsQuestion(name.value.0, recordType.value.0, recordClass.value.0), recordClass.value.1))
  }

  /** Decoding an encoded question with a well-formed name gives it back and leaves what followed. */
  lemma DecodeOfEncoded(q: DnsQuestion, rest: seq<byte>)
    requires NameCodec.WellFormed(q.name)
    ensures Decode(Encode(q) + rest) == Some((q, rest))
  {
    var name := NameCodec.Encode(q.name);
    var t := PutU16(q.recordType);
    var c := PutU16(q.recordClass);
    var classAndRest := c + rest;
    var fields := t + classAndRest;
    var buf := Encode(q) + rest;
    assert buf == name + fields by {
      calc {
        buf;
        name + t + c + rest;
        { SeqAssoc(name + t, c, rest); }
        name + t + (c + rest);
        { SeqAssoc(name, t, c + rest); }
        name + (t + (c + rest));
      }
    }
    assert NameCodec.Decode(buf) == Some((q.name, fields)) by {
      NameCodec.DecodeOfEncoded(q.name, fields);
    }
    assert GetU16(fields) == Some((q.recordType, classAndRest)) by {
      GetPutU16(q.recordType, classAndRest);
    }
    assert GetU16(classAndRest) == Some((q.recordClass, rest)) by {
      GetPutU16(q.recordClass, rest);
    }
  }

  /** The octets of an encoded question, field by field. */
  lemma EncodeLayout(q: DnsQuestion)
    ensures Encode(q) == NameCodec.Encode(q.name) + PutU16(q.recordType) + PutU16(q.recordClass)
  {
  }

  /**
   * Encoding a decoded question reproduces the octets the decoder consumed,
   * when its name decoded from at least one label and none holds a '.'.
   */
  lemma EncodeOfDecoded(buf: seq<byte>)
    requires Decode(buf).Some?
    requires NameCodec.DecodeLabels(buf).Some?
    requires |NameCodec.DecodeLabels(buf).value.0| >= 1 && NameCodec.DotFree(NameCodec.DecodeLabels(buf).value.0)
    ensures Encode(Decode(buf).value.0) + Decode(buf).value.1 == buf
  {
    var (q, rest) := Decode(buf).value;
    var name := NameCodec.Encode(q.name);
    var fields := PutU16(q.recordType) + PutU16(q.recordClass);
    var after := NameCodec.Decode(buf).value.1;
    assert after == fields + rest;
    assert buf == name + after by {
      NameCodec.EncodeOfDecoded(buf);
    }
    calc {
      Encode(q) + rest;
      { EncodeLayout(q); }
      name + PutU16(q.recordType) + PutU16(q.recordClass) + rest;
      { SeqAssoc(name, PutU16(q.recordType), PutU16(q.recordClass)); }
      name + fields + rest;
      { SeqAssoc(name, fields, rest); }
      name + (fields + rest);
    }
  }
}

=== FILE: record.dfy ===
/**
 * A resource record (section 4.1.3 of RFC 1035): owner name, TYPE, CLASS,
 * TTL, RDLENGTH and RDATA. The encoder writes the length field as stored
 * and the data in full, whether or not they agree; the decoder reads the
 * length field and then exactly that many octets of data.
 */
module RecordCodec {
  import opened Wire
  import NameCodec

  datatype DnsRecord = DnsRecord(
    name: NameCodec.Name,
    recordType: u16,
    recordClass: u16,
    ttl: u32,
    length: u16,
    data: seq<byte>)

  /** The length field states the size of the data. */
  predicate Consistent(r: DnsRecord) {
    r.length as int == |r.data|
  }

  /** The ten octets between the name and the data: type, class, TTL and length, big-endian. */
  function FixedFields(recordType: u16, recordClass: u16, ttl: u32, length: u16): (f: seq<byte>)
    ensures |f| == 10
  {
    PutU16(recordType) + (PutU16(recordClass) + (PutU32(ttl) + PutU16(length)))
  }

  /** The fixed fields read back from their octets, and the length field sits at offset 8. */
  lemma FixedFieldsReadBack(recordType: u16, recordClass: u16, ttl: u32, length: u16)
    ensures var f := FixedFields(recordType, recordClass, ttl, length);
      ReadU16(f) == recordType && ReadU16(f[2..]) == recordClass
      && ReadU32(f[4..]) == ttl && ReadU16(f[8..]) == length
  {
    var f := FixedFields(recordType, recordClass, ttl, length);
    var l := PutU16(length);
    assert f[2..] == PutU16(recordClass) + (PutU32(ttl) + l);
    assert f[4..] == PutU32(ttl) + l;
    assert f[8..] == l + [];
    ReadPutU16(recordType, f[2..]);
    ReadPutU16(recordClass, f[4..]);
    ReadPutU32(ttl, l);
    ReadPutU16(length, []);
  }

  /** `From<&DnsRecord> for Bytes`: the encoded name, the fixed fields, then all of the data. */
  function Encode(r: DnsRecord): (out: seq<byte>)
    ensures |out| == |r.name| + 12 + |r.data|
    ensures out[..|r.name| + 2] == NameCodec.Encode(r.name)
    ensures out[|r.name| + 2..|r.name| + 12] == FixedFields(r.recordType, r.recordClass, r.ttl, r.length)
    ensures out[|r.name| + 12..] == r.data
  {
    var name := NameCodec.Encode(r.name);
    var fixed := FixedFields(r.recordType, r.recordClass, r.ttl, r.length);
    var out := name + fixed + r.data;
    assert out[..|name|] == name;
    assert out[|name|..|name| + 10] == fixed;
    assert out[|name| + 10..] == r.data;
    out
  }

  /**
   * The type, class, TTL and length reads of `from_bytes`, each from where
   * the previous stopped; it fails when fewer than ten octets remain.
   */
  function ReadFixed(buf: seq<byte>): (r: Option<(u16, u16, u32, u16, seq<byte>)>)
    ensures r.Some? <==> |buf| >= 10
    ensures r.Some? ==>
      var (recordType, recordClass, ttl, length, rest) := r.value;
      buf == FixedFields(recordType, recordClass, ttl, length) + rest
      && length == ReadU16(buf[8..])
  {
    var recordType := GetU16(buf);
    if recordType.None? then None
    else
      var recordClass := GetU16(recordType.value.1);
      if recordClass.None? then None
      else
        var ttl := GetU32(recordClass.value.1);
        if ttl.None? then None
        else
          var length := GetU16(ttl.value.1);
          if length.None? then None
          else
            var rest := length.value.1;
            assert ttl.value.1 == buf[8..];
            ReadFixedConsumed(buf, recordType.value.0, recordClass.value.0, ttl.value.0, length.value.0, rest);
            Some((recordType.value.0, recordClass.value.0, ttl.value.0, length.value.0, rest))
  }

  lemma ReadFixedConsumed(buf: seq<byte>, recordType: u16, recordClass: u16, ttl: u32, length: u16, rest: seq<byte>)
    requires buf == PutU16(recordType) + (PutU16(recordClass) + (PutU32(ttl) + (PutU16(length) + rest)))
    ensures buf == FixedFields(recordType, recordClass, ttl, length) + rest
  {
    var t := PutU16(recordType);
    var c := PutU16(recordClass);
    var w := PutU32(ttl);
    var l := PutU16(length);
    calc {
      t + (c + (w + (l + rest)));
      { SeqAssoc(w, l, rest); }
      t + (c + (w + l + rest));
      { SeqAssoc(c, w + l, rest); }
      t + (c + (w + l) + rest);
      { SeqAssoc(t, c + (w + l), rest); }
      t + (c + (w + l)) + rest;
    }
  }

  /**
   * `DnsRecord::from_bytes`: the name, type, class, TTL and length in turn,
   * then `length` octets of data. It fails where the program panics: the
   * name does not decode, fewer than ten octets follow it, or fewer than
   * `length` octets follow those.
   */
  function FromBytes(buf: seq<byte>): (r: Option<(DnsRecord, seq<byte>)>)
    ensures r.Some? <==>
      var name := NameCodec.Decode(buf);
      name.Some? && |name.value.1| >= 10 && ReadU16(name.value.1[8..]) as int <= |name.value.1| - 10
    ensures r.Some? ==>
      var (rec, rest) := r.value;
      Consistent(rec)
      && rec.name == NameCodec.Decode(buf).value.0
      && NameCodec.Decode(buf).value.1
         == FixedFields(rec.recordType, rec.recordClass, rec.ttl, rec.length) + rec.data + rest
  {
    var name := NameCodec.Decode(buf);
    if name.None? then None
    else
      var fixed := ReadFixed(name.value.1);
      if fixed.None? then None
      else
        var (recordType, recordClass, ttl, length, after) := fixed.value;
        var data := CopyToBytes(after, length as int);
        if data.None? then None
        else
          var rec := DnsRecord(name.value.0, recordType, recordClass, ttl, length, data.value.0);
          SeqAssoc(FixedFields(recordType, recordClass, ttl, length), data.value.0, data.value.1);
          Some((rec, data.value.1))
  }

  /** Reading the fixed fields back from their octets gives the values written and leaves what followed. */
  lemma ReadFixedOfFields(recordType: u16, recordClass: u16, ttl: u32, length: u16, rest: seq<byte>)
    ensures ReadFixed(FixedFields(recordType, recordClass, ttl, length) + rest)
         == Some((recordType, recordClass, ttl, length, rest))
  {
    var lengthAndRest := PutU16(length) + rest;
    var ttlAndRest := PutU32(ttl) + lengthAndRest;
    var classAndRest := PutU16(recordClass) + ttlAndRest;
    var fields := PutU16(recordType) + classAndRest;
    assert FixedFields(recordType, recordClass, ttl, length) + rest == fields by {
      ReadFixedConsumed(fields, recordType, recordClass, ttl, length, rest);
    }
    assert GetU16(fields) == Some((recordType, classAndRest)) by {
      GetPutU16(recordType, classAndRest);
    }
    assert GetU16(classAndRest) == Some((recordClass, ttlAndRest)) by {
      GetPutU16(recordClass, ttlAndRest);
    }
    assert GetU32(ttlAndRest) == Some((ttl, lengthAndRest)) by {
      GetPutU32(ttl, lengthAndRest);
    }
    assert GetU16(lengthAndRest) == Some((length, rest)) by {
      GetPutU16(length, rest);
    }
  }

  /** Decoding an encoded consistent record with a well-formed name gives it back and leaves what followed. */
  lemma FromBytesOfEncoded(r: DnsRecord, rest: seq<byte>)
    requires Consistent(r) && NameCodec.WellFormed(r.name)
    ensures FromBytes(Encode(r) + rest) == Some((r, rest))
  {
    var fixed := FixedFields(r.recordType, r.recordClass, r.ttl, r.length);
    var dataAndRest := r.data + rest;
    var fields := fixed + dataAndRest;
    var buf := Encode(r) + rest;
    assert buf == NameCodec.Encode(r.name) + fields by {
      EncodeLayout(r, rest);
    }
    assert NameCodec.Decode(buf) == Some((r.name, fields)) by {
      NameCodec.DecodeOfEncoded(r.name, fields);
    }
    assert ReadFixed(fields) == Some((r.recordType, r.recordClass, r.ttl, r.length, dataAndRest)) by {
      ReadFixedOfFields(r.recordType, r.recordClass, r.ttl, r.length, dataAndRest);
    }
    assert CopyToBytes(dataAndRest, r.length as int) == Some((r.data, rest)) by {
      CopyToBytesPrefix(r.data, rest);
    }
  }

  /** The octets of an encoded record followed by more octets: the name, then the fixed fields, then the rest. */
  lemma EncodeLayout(r: DnsRecord, rest: seq<byte>)
    ensures Encode(r) + rest
         == NameCodec.Encode(r.name) + (FixedFields(r.recordType, r.recordClass, r.ttl, r.length) + (r.data + rest))
  {
    var name := NameCodec.Encode(r.name);
    var fixed := FixedFields(r.recordType, r.recordClass, r.ttl, r.length);
    calc {
      Encode(r) + rest;
      name + fixed + r.data + rest;
      { SeqAssoc(name + fixed, r.data, rest); }
      name + fixed + (r.data + rest);
      { SeqAssoc(name, fixed, r.data + rest); }
      name + (fixed + (r.data + rest));
    }
  }

  /** A record whose length field disagrees with its data never comes back from a round trip. */
  lemma InconsistentNotRecovered(r: DnsRecord, rest: seq<byte>)
    requires !Consistent(r)
    ensures FromBytes(Encode(r) + rest) != Some((r, rest))
  {
  }

  /**
   * Encoding a decoded record reproduces the octets the decoder consumed,
   * when its name decoded from at least one label and none holds a '.'.
   */
  lemma EncodeOfFromBytes(buf: seq<byte>)
    requires FromBytes(buf).Some?
    requires NameCodec.DecodeLabels(buf).Some?
    requires |NameCodec.DecodeLabels(buf).value.0| >= 1 && NameCodec.DotFree(NameCodec.DecodeLabels(buf).value.0)
    ensures Encode(FromBytes(buf).value.0) + FromBytes(buf).value.1 == buf
  {
    var (rec, rest) := FromBytes(buf).value;
    var name := NameCodec.Encode(rec.name);
    var fixed := FixedFields(rec.recordType, rec.recordClass, rec.ttl, rec.length);
    var after := NameCodec.Decode(buf).value.1;
    assert after == fixed + rec.data + rest;
    assert buf == name + after by {
      NameCodec.EncodeOfDecoded(buf);
    }
    calc {
      Encode(rec) + rest;
      name + fixed + rec.data + rest;
      { SeqAssoc(name, fixed, rec.data); }
      name + (fixed + rec.data) + rest;
      { SeqAssoc(name, fixed + rec.data, rest); }
      name + (fixed + rec.data + rest);
    }
  }
}

=== FILE: wire.dfy ===
/**
 * Byte-level vocabulary shared by every codec of the DNS server: octets,
 * the fixed-width unsigned integers of the wire format, failure-carrying
 * results, and the big-endian reads and writes of the `bytes` crate.
 *
 * Rust's `u8`, `u16` and `u32` are bit-vectors here, so shifts drop the bits
 * that leave the word exactly as they do in the program. A read cursor
 * (`&mut Bytes`) is modelled as the unread suffix of the buffer: a read
 * returns the value together with the suffix that remains, and a read past
 * the end, which panics in the program, returns `None`.
 */
module Wire {

  type byte = bv8
  type u16 = bv16
  type u32 = bv32

  /** A value a decoder may fail to produce: `None` stands where the program would panic. */
  datatype Option<+T> = None | Some(value: T) {

    /** `unwrap_or_default` and `unwrap_or`: the value if there is one, `default` if not. */
    function GetOr(default: T): T {
      if Some? then value else default
    }
  }

  /** An outcome that carries either a value or the reason it could not be produced. */
  datatype Result<+T, +E> = Ok(value: T) | Err(error: E)

  lemma OctetBound(b: byte)
    ensures b as int < 256
  {
  }

  lemma OctetOfValue(b: byte)
    ensures (b as int) as byte == b
  {
  }

  /** An octet read as a length and written back as a length is the same octet. */
  lemma ByteLength(b: byte)
    ensures ((b as int % 256) as byte) == b
  {
    OctetBound(b);
    OctetOfValue(b);
  }

  /** A length below 256 written as an octet reads back as the same length. */
  lemma LengthByte(n: int)
    requires 0 <= n < 256
    ensures (n as byte) as int == n
  {
    var b := OctetOf(n);
    OctetOfValue(b);
  }

  /** The octet whose value is `n`, counted up from zero. */
  function OctetOf(n: int): (b: byte)
    requires 0 <= n < 256
    ensures b as int == n
    decreases n
  {
    if n == 0 then 0 else OctetOf(n - 1) + 1
  }

  /** Concatenation regroups freely; stated once so that proofs can cite the step. */
  lemma SeqAssoc<T>(a: seq<T>, b: seq<T>, c: seq<T>)
    ensures a + (b + c) == a + b + c
  {
  }

  /** A non-empty sequence is its first element followed by the others. */
  lemma HeadTail<T>(xs: seq<T>)
    requires |xs| >= 1
    ensures [xs[0]] + xs[1..] == xs
  {
  }

  /** An empty sequence is `[]`, and putting it in front of another changes nothing. */
  lemma EmptyFront<T>(xs: seq<T>, ys: seq<T>)
    requires |xs| == 0
    ensures xs == [] && xs + ys == ys
  {
  }

  /** The encodings of the entries of `xs`, in order, one after another. */
  function Concat<T>(xs: seq<T>, enc: T -> seq<byte>): seq<byte>
    decreases |xs|
  {
    if |xs| == 0 then [] else enc(xs[0]) + Concat(xs[1..], enc)
  }

  /** Encoding two lists one after the other gives their two encodings one after the other. */
  lemma {:induction false} ConcatAppend<T>(xs: seq<T>, ys: seq<T>, enc: T -> seq<byte>)
    ensures Concat(xs + ys, enc) == Concat(xs, enc) + Concat(ys, enc)
    decreases |xs|
  {
    if |xs| == 0 {
      assert xs + ys == ys;
    } else {
      assert (xs + ys)[1..] == xs[1..] + ys;
      ConcatAppend(xs[1..], ys, enc);
      SeqAssoc(enc(xs[0]), Concat(xs[1..], enc), Concat(ys, enc));
    }
  }

  /** A list of one entry encodes as that entry. */
  lemma ConcatSingle<T>(x: T, enc: T -> seq<byte>)
    ensures Concat([x], enc) == enc(x)
  {
    assert [x][1..] == [];
  }

  /** Appending one entry to a list appends its encoding. */
  lemma ConcatSnoc<T>(xs: seq<T>, x: T, enc: T -> seq<byte>)
    ensures Concat(xs + [x], enc) == Concat(xs, enc) + enc(x)
  {
    ConcatAppend(xs, [x], enc);
    ConcatSingle(x, enc);
  }

  /** `put_u16`: the two octets of `x`, most significant first. */
  function PutU16(x: u16): (r: seq<byte>)
    ensures |r| == 2
  {
    [(x >> 8) as byte, (x & 0xFF) as byte]
  }

  /** `put_u32`: the four octets of `x`, most significant first. */
  function PutU32(x: u32): (r: seq<byte>)
    ensures |r| == 4
  {
    [(x >> 24) as byte, ((x >> 16) & 0xFF) as byte, ((x >> 8) & 0xFF) as byte, (x & 0xFF) as byte]
  }

  /** The big-endian value of the first two octets of `b`. */
  function ReadU16(b: seq<byte>): u16
    requires |b| >= 2
  {
    (b[0] as u16 << 8) | b[1] as u16
  }

  /** The big-endian value of the first four octets of `b`. */
  function ReadU32(b: seq<byte>): u32
    requires |b| >= 4
  {
    (b[0] as u32 << 24) | (b[1] as u32 << 16) | (b[2] as u32 << 8) | b[3] as u32
  }

  /** Reading back what `put_u16` wrote yields the written value. */
  lemma ReadPutU16(x: u16, rest: seq<byte>)
    ensures ReadU16(PutU16(x) + rest) == x
  {
  }

  /** Writing what was read reproduces the two octets that were read. */
  lemma PutReadU16(b: seq<byte>)
    requires |b| >= 2
    ensures PutU16(ReadU16(b)) == b[..2]
  {
  }

  lemma ReadPutU32(x: u32, rest: seq<byte>)
    ensures ReadU32(PutU32(x) + rest) == x
  {
  }

  lemma PutReadU32(b: seq<byte>)
    requires |b| >= 4
    ensures PutU32(ReadU32(b)) == b[..4]
  {
  }

  /** `get_u16` on a cursor: the value and the cursor two octets further on. */
  function GetU16(buf: seq<byte>): (r: Option<(u16, seq<byte>)>)
    ensures r.Some? <==> |buf| >= 2
    ensures r.Some? ==> buf == PutU16(r.value.0) + r.value.1
  {
    if |buf| < 2 then None
    else
      PutReadU16(buf);
      assert buf == buf[..2] + buf[2..];
      Some((ReadU16(buf), buf[2..]))
  }

  /** `get_u32` on a cursor: the value and the cursor four octets further on. */
  function GetU32(buf: seq<byte>): (r: Option<(u32, seq<byte>)>)
    ensures r.Some? <==> |buf| >= 4
    ensures r.Some? ==> buf == PutU32(r.value.0) + r.value.1
  {
    if |buf| < 4 then None
    else
      PutReadU32(buf);
      assert buf == buf[..4] + buf[4..];
      Some((ReadU32(buf), buf[4..]))
  }

  /** `copy_to_bytes(n)` on a cursor: the next `n` octets and the cursor after them. */
  function CopyToBytes(buf: seq<byte>, n: nat): (r: Option<(seq<byte>, seq<byte>)>)
    ensures r.Some? <==> n <= |buf|
    ensures r.Some? ==> |r.value.0| == n && buf == r.value.0 + r.value.1
  {
    if |buf| < n then None else Some((buf[..n], buf[n..]))
  }

  lemma GetPutU16(x: u16, rest: seq<byte>)
    ensures GetU16(PutU16(x) + rest) == Some((x, rest))
  {
    ReadPutU16(x, rest);
    assert (PutU16(x) + rest)[2..] == rest;
  }

  lemma GetPutU32(x: u32, rest: seq<byte>)
    ensures GetU32(PutU32(x) + rest) == Some((x, rest))
  {
    ReadPutU32(x, rest);
    assert (PutU32(x) + rest)[4..] == rest;
  }

  lemma CopyToBytesPrefix(data: seq<byte>, rest: seq<byte>)
    ensures CopyToBytes(data + rest, |data|) == Some((data, rest))
  {
    assert (data + rest)[..|data|] == data;
    assert (data + rest)[|data|..] == rest;
  }
}
